=== FILE: README.md ===
# Messagebox hardware controller, modelled in Dafny

The messagebox is a Raspberry Pi device. It polls a backend for a message addressed to it and shows the message on a small ST7735 screen. While the message is unread, a servo is rotated to 180 degrees and back to 0. When the box is opened, the device acknowledges the message.

This project models the controller's core as pure functions with proved contracts:

- `Messagebox`: the five-state control loop (`LOAD_CONFIG`, `REGISTER_DEVICE`, `FETCH_MESSAGES`, `NOTIFY`, `READING`), the settings merge and the servo thread's angle sequence.
- `NetworkManager`: the three backend calls, and how each HTTP outcome is classified into a return value or a raised error.
- `ConfigHandler`: the configuration record over an abstract `config.ini` store.
- `HostUrl`: the endpoint-validation regular expression, written as a recognizer.
- `DisplayRenderer`: the arithmetic of the renderer (colour parsing with the red/blue swap, font-size bands, dimensions under rotation, the author line).
- `HardwareId`: generation of the hardware ID and its grouping into triplets on the registration screen.
- `Wrappers`: `Option` and `Result`.

Modelling conventions:

- A state handler is a function. It takes the controller's fields and what the world answers (HTTP replies, random digits). It returns the new fields, the next state and the visible effects, in order. The effects are screens, sleeps, requests sent, the servo start, and waits on the lid switch.
- A Python exception that nothing catches is `Crash(fault)`. `exit(0)` is `Exit`.
- An error handler in the fetch state calls `run()` again with a new current state. Here it simply produces that state.
- The constants HARDWARE_ID_LENGTH and MESSAGE_CHAR_LENGTH come from `const.py`, which is not part of this model. They are parameters: `Limits`, and the `draws` and `maxChars` arguments. `Limits` also carries `maxSleep`, the longest sleep the platform's `time.sleep` accepts before raising OverflowError. For CPython on a 64-bit build that is 9223372036 seconds, and it is lower where `time_t` has 32 bits.

Behaviour of the code worth noting:

- Muted with a fetched message: the fetch state shows the message and goes back to fetching without sleeping (`MutedMessageSkipsSleep`).
- Muted with a held message: each poll overwrites the held message without acknowledging it (`MutedRefetchReplacesHeld`).
- Fetch interval out of range: a backend `fetch_interval` is stored as is. If it is below zero or past `maxSleep`, the next empty poll stops the program in `time.sleep` (`AfterFetch`, `FetchStep`).
- Quote stripping before a save: the loaded endpoint has its quotes removed, and registration writes it back. An endpoint such as `http://ab.cd?"` validates, but `http://ab.cd?` does not, so the box stops on the next boot after it registers (`StrippedEndpointLostOnRegistration`, `QuotedEndpointLostOnRegistration`).
- Unauthenticated error: the fetch handler does not clear the token. It only switches to registration.
- Empty endpoint: the exit in `load_config` can never be reached. An empty endpoint already fails validation inside `ConfigHandler.load_config`, and that error is not caught (`LoadNeverExits`, `FirstBootStopsOnDefaultConfig`).

## Model

| member | source | states |
|---|---|---|
| NetworkManager.AuthHeader | src/NetworkManager.py:37-42 | the Authorization value is "Bearer " followed by exactly the token |
| NetworkManager.AuthHeaderRoundTrip | src/NetworkManager.py:39 | a server stripping the "Bearer " prefix reads back the client's token |
| NetworkManager.RegisterDevice | src/NetworkManager.py:21-35 | one GET to endpoint + "/api/register" carrying the device ID; a non-empty token in a 200 reply is returned and stored in the client; any other status or an empty token returns None and leaves the client unchanged; no reply is a connection error |
| NetworkManager.FetchMessages | src/NetworkManager.py:44-61 | without a token, nothing is sent and InvalidToken is raised; with a token, one bearer-authenticated GET to /api/messages; the if-and-only-if outcomes are: success exactly for 200 with both keys (body returned unchanged), InvalidResponse for 200 missing a key, Unauthenticated for 401, a connection error for no reply, InvalidToken for every other status |
| NetworkManager.ReadMessage | src/NetworkManager.py:63-71 | a PATCH to /api/messages/<id> is sent exactly when the token is non-empty and the id is not 0; any answer to it returns True; otherwise InvalidToken, or a connection error when there was no answer; False is never returned |
| HostUrl.IsHostValid | src/ConfigHandler.py:25-38 | a URL is accepted when a scheme, a host (a domain, localhost, or four dot-separated digit groups), an optional port and an optional path cover it entirely, ignoring ASCII case, or cover all of it but a final newline |
| HostUrl.SchemeLength | src/ConfigHandler.py:27 | a scheme prefix is found exactly when the text starts with http://, https://, ftp:// or ftps:// in any letter case, and its length is that scheme's |
| HostUrl.AcceptedHasNoSpace | src/ConfigHandler.py:25-38 | an accepted endpoint contains no white space, except the single final newline that `$` lets through |
| HostUrl.AcceptedHasScheme | src/ConfigHandler.py:27 | an accepted endpoint starts with one of the four schemes, so "" and a quoted value are rejected |
| HostUrl.LocalhostAccepted | src/ConfigHandler.py:30-33 | any scheme + "localhost" in any case + ":" + digits is accepted |
| HostUrl.DomainAccepted | src/ConfigHandler.py:29 | any scheme + label + "." + top-level label + a valid path is accepted |
| HostUrl.QuotedQueryAccepted | src/ConfigHandler.py:29 | `http://` + label + "." + top-level label + `?"` is accepted: the quote counts as a path character |
| HostUrl.StrippedQueryRejected | src/ConfigHandler.py:29 | `http://` + label + "." + top-level label + `?` is rejected: a `?` starts a path only when a character follows it |
| HostUrl.OctetsNotRangeChecked | src/ConfigHandler.py:31 | four dot-separated groups of one to three digits are accepted without any range check on the values |
| ConfigHandler.WriteConfig | src/ConfigHandler.py:74-80 | SETTINGS holds exactly the four keys with the record's values, SetUp written as "True"/"False"; every other section the parser held is kept |
| ConfigHandler.CreateConfig | src/ConfigHandler.py:44-51 | the new file has SETTINGS as its only section, holding the default record |
| ConfigHandler.LowerString | src/ConfigHandler.py:65 | the lower-casing `getboolean` applies before comparing: the same length, with each character lowered (ASCII letters only) |
| ConfigHandler.ParseBoolean | src/ConfigHandler.py:65 | true exactly for 1/yes/true/on, false exactly for 0/no/false/off, in any case; anything else is an error |
| ConfigHandler.RemoveQuotes | src/ConfigHandler.py:70 | the result has no double quote and keeps the count of every other character |
| ConfigHandler.RemoveQuotesChar | src/ConfigHandler.py:70 | a single quote character is removed; any other single character is kept |
| ConfigHandler.RemoveQuotesAppend | src/ConfigHandler.py:70 | cleaning a concatenation is concatenating the cleaned parts, so the kept characters stay in their order |
| ConfigHandler.RemoveQuotesUnquoted | src/ConfigHandler.py:70 | a value without quotes comes back unchanged |
| ConfigHandler.LoadConfig | src/ConfigHandler.py:53-72 | no file gives FileNotFound (exactly then); on success each field is the stored value, the raw endpoint passed validation and the returned one has no quote; an invalid stored endpoint fails with InvalidHost before the other keys are read |
| ConfigHandler.LoadedEndpointNonEmpty | src/ConfigHandler.py:60-70 | a successfully loaded endpoint is never empty |
| ConfigHandler.QuotedEndpointRejected | src/ConfigHandler.py:62-70 | an endpoint saved inside double quotes is rejected, because validation runs before the quotes are stripped |
| ConfigHandler.CreatedConfigRejected | src/ConfigHandler.py:44-63 | the default file fails to load with InvalidHost("") |
| ConfigHandler.WriteThenLoad | src/ConfigHandler.py:53-80 | loading what was written gives the same record with the endpoint's quotes removed, and fails exactly when the endpoint is invalid |
| DisplayRenderer.ParseHexColor | src/DisplayRenderer.py:14 | parsing succeeds exactly for 3, 4, 6 or 8 hex digits; the short forms give each channel as 17 times its digit, the long forms read the first three digit pairs in base 16 (a fourth channel is ignored); the channels are in 0..255 |
| DisplayRenderer.HexValueIgnoresCase | src/DisplayRenderer.py:14 | a hex digit has the same value in either letter case; the digits 0-9, a-f and A-F, and only those, have a value |
| DisplayRenderer.ParseIgnoresCase | src/DisplayRenderer.py:14 | two spellings that differ only in letter case parse to the same colour, or both fail |
| DisplayRenderer.ShortHexRoundTrip | src/DisplayRenderer.py:14 | the 3-digit spelling xyz parses to (17x, 17y, 17z), and a fourth alpha digit changes nothing |
| DisplayRenderer.SwappedColor | src/DisplayRenderer.py:13-16 | the renderer's colour is the parsed colour with red and blue exchanged; it fails exactly when parsing fails |
| DisplayRenderer.SwapRedBlue | src/DisplayRenderer.py:16 | the channels come out as (blue, green, red) |
| DisplayRenderer.SwapInvolution | src/DisplayRenderer.py:16 | swapping twice restores the colour, and green is never touched |
| DisplayRenderer.HexRoundTrip | src/DisplayRenderer.py:13-16 | parsing the six-digit spelling of a colour returns it; the renderer's version has red and blue exchanged |
| DisplayRenderer.AnyCaseRoundTrip | src/DisplayRenderer.py:13-16 | every letter-case spelling of a colour's six digits, upper case included, parses back to the colour |
| DisplayRenderer.FontSize | src/DisplayRenderer.py:28-37 | each length band gets its size (12 from 120 up to the limit, 13 for 81-120, 15 for 51-80, 18 up to 50); 120 falls to 13 when the limit is below 120; longer than both 120 and the limit keeps 13 |
| DisplayRenderer.FontSizeMonotone | src/DisplayRenderer.py:28-37 | up to the limit (or up to 120), a longer text never gets a larger font |
| DisplayRenderer.FontSizeNotMonotoneBeyondLimit | src/DisplayRenderer.py:29-31 | one character past the limit the size goes back from 12 to 13 |
| DisplayRenderer.DisplayDimensions | src/DisplayRenderer.py:107-115 | width and height are exchanged exactly when rotation % 180 == 90, and the pair is always a permutation of the panel's |
| DisplayRenderer.DimensionsHalfTurn | src/DisplayRenderer.py:107-115 | rotations a half turn apart give the same size, and applying the swap twice restores the panel's size |
| DisplayRenderer.AuthorLine | src/DisplayRenderer.py:49 | the line is "from " followed by exactly the author |
| HardwareId.GenerateHardwareId | src/Messagebox.py:102-103 | the ID has one decimal digit per draw, and digit k is draw k |
| HardwareId.GroupTriplets | src/Messagebox.py:142 | the ID text is the consecutive three-character blocks of the ID joined by single spaces |
| HardwareId.StridesZipToChunks | src/Messagebox.py:142 | zipping the three strides `id[::3]`, `id[1::3]`, `id[2::3]` gives exactly the consecutive blocks of three, the remainder dropped |
| HardwareId.TripletsDropRemainder | src/Messagebox.py:141-143 | removing the spaces gives the first 3*(n/3) characters, so a trailing one or two are not shown; the text is 4*(n/3)-1 characters long |
| HardwareId.GeneratedIdGrouping | src/Messagebox.py:141-143 | a generated ID shows all its digits except the last n mod 3 |
| Messagebox.MergeSettings | src/Messagebox.py:293-306 | each setting is replaced exactly when its key is in the settings block, and kept otherwise |
| Messagebox.MergeLaws | src/Messagebox.py:293-306 | merging an empty block changes nothing; merging a block twice is the same as once; a full later block overrides an earlier one |
| Messagebox.FetchAndMerge | src/Messagebox.py:293-306 | the fetch's settings are merged only when the fetch succeeds; a raised error leaves the settings unchanged |
| Messagebox.AfterLoad | src/Messagebox.py:115-132 | an empty endpoint exits; an empty hardware ID is replaced by fresh digits and a stored one is kept; the client takes the endpoint and token; the next state is FETCH_MESSAGES exactly when set up, REGISTER_DEVICE exactly when not |
| Messagebox.LoadConfigStep | src/Messagebox.py:105-132 | a missing file is replaced by the default one and an existing one is kept; a load error stops the program with that error; otherwise it continues as AfterLoad |
| Messagebox.LoadNeverExits | src/Messagebox.py:113-117 | the exit for an empty endpoint is unreachable |
| Messagebox.FirstBootStopsOnDefaultConfig | src/Messagebox.py:110-117 | with no file, the default file is written and the program stops on InvalidHost("") |
| Messagebox.RegisterStep | src/Messagebox.py:134-162 | shows the grouped ID, then sends the register request; with a token, config and client hold the token, SetUp is true, the file is saved, the banner is shown, there is a 3-second pause and the next state is FETCH_MESSAGES; without one it sleeps 10 s and retries with nothing changed; no reply stops the program |
| Messagebox.IdScreen | src/Messagebox.py:143 | the screen text is "Personal ID:" and a newline, then the ID in blocks of three joined by spaces |
| Messagebox.RegistrationPersists | src/Messagebox.py:147-158 | after registering, the saved file loads back as set up, with the new token and the same hardware ID, exactly when the endpoint in memory (the loaded one, quotes removed) validates; otherwise loading the saved file fails with InvalidHost of that endpoint |
| Messagebox.StrippedEndpointLostOnRegistration | src/Messagebox.py:147-158 | a file whose endpoint validates but not once its quotes are removed loads, goes to registration with the stripped endpoint, and after a successful registration the saved file fails to load on the stripped endpoint |
| Messagebox.QuotedEndpointLostOnRegistration | src/ConfigHandler.py:62-70 | an instance: a file with endpoint `http://name.tld?"` loads and registers, and the saved `http://name.tld?` is rejected |
| Messagebox.Recover | src/Messagebox.py:204-230 | connection and invalid-response errors go back to FETCH_MESSAGES, exactly those; unauthenticated and invalid-token errors go to REGISTER_DEVICE, exactly those |
| Messagebox.AfterFetch | src/Messagebox.py:176-203 | after a successful fetch: the mute banner first; an empty message then waits the fetch interval and polls again, or stops the program when that interval is negative or past `maxSleep` (time.sleep raises ValueError or OverflowError); a message with valid colours is shown (its text, the author line, the font size for its length, the swapped colours) and leads to NOTIFY, or to FETCH_MESSAGES when muted; a text colour that fails, or else a background colour that fails, stops the program with that colour |
| Messagebox.FetchStep | src/Messagebox.py:164-230 | a held message while unmuted goes to NOTIFY with no request; otherwise one fetch is made. Its errors change no field and lead to Recover's state, with "No connection" and a 5 s wait only for a connection error. A success stores the payload and the merged settings. An empty message gives the banner, a wait of the merged interval and another poll; a merged interval that is negative or past `maxSleep` stops the program after the banner. A message with valid colours gives the banner and its screen, then NOTIFY, or another poll when muted. A bad colour stops the program at the first bad one |
| Messagebox.MutedFetchNeverNotifies | src/Messagebox.py:176-203 | after a fetch whose merged settings say muted, the next state is never NOTIFY |
| Messagebox.MutedRefetchReplacesHeld | src/Messagebox.py:169-174 | while muted, a held message is not used: the fetch is made again and its payload replaces the held one |
| Messagebox.MutedMessageSkipsSleep | src/Messagebox.py:192-197 | a message fetched while muted causes no sleep; with valid colours it is shown under the "DEVICE MUTED" banner and the next state is FETCH_MESSAGES |
| Messagebox.UnmutedMessageNotifies | src/Messagebox.py:174-199 | an unmuted fetch of a message with valid colours sends one request, shows the "NO MESSAGES" banner and the message, holds the payload, and goes to NOTIFY |
| Messagebox.IncompleteReplyRetried | src/Messagebox.py:220-224 | a 200 reply missing a key is retried from FETCH_MESSAGES with nothing changed |
| Messagebox.FetchStepAsWritten | src/NetworkManager.py:53-56 | as written, a 200 reply missing a key stops the program with a TypeError; every other reply behaves as FetchStep |
| Messagebox.IncompleteReplyStopsAsWritten | src/NetworkManager.py:56 | an example: the reply {message: {}} without settings stops the program as written, but would be retried as intended |
| Messagebox.NotifyStep | src/Messagebox.py:233-247 | notifying always leads to READING, changes no field and sends no request |
| Messagebox.ReadingStep | src/Messagebox.py:249-269 | with no held message, goes straight back to FETCH_MESSAGES; with one, its id is acknowledged, then it is forgotten and the state returns to FETCH_MESSAGES; a refused or unanswered acknowledgement stops the program |
| Messagebox.ReadingTwiceSendsOnce | src/Messagebox.py:253-258 | a second READING pass after a successful one sends nothing and changes nothing |
| Messagebox.ReadingRefusesFalsyId | src/Messagebox.py:256-257 | a held message with id 0, or a client without a token, stops the program on acknowledgement without sending anything |
| Messagebox.RunStep | src/Messagebox.py:84-98 | each state is dispatched to its own handler |
| Messagebox.LoadKeepsConsistent | src/Messagebox.py:105-132 | after loading, the client's endpoint and token are the configuration's |
| Messagebox.FetchKeepsConsistent | src/Messagebox.py:164-230 | the fetch state keeps the client equal to the configuration, and a held payload always has both keys |
| Messagebox.RunStepKeepsConsistent | src/Messagebox.py:84-98 | every state keeps the client equal to the configuration and keeps held payloads complete; only LOAD_CONFIG changes the hardware ID |
| Messagebox.Pulses | src/Messagebox.py:284-289 | rotation_count rounds of 180 then 0 (none for a count of 0 or less) |
| Messagebox.ServoCycle | src/Messagebox.py:276-289 | each pass fetches and merges; a fetch error ends the thread; otherwise the pulses are skipped only when the reply's own settings say mute |
| Messagebox.RotateServo | src/Messagebox.py:271-273 | the thread first moves the servo to 0 |
| Messagebox.ServoLoop | src/Messagebox.py:276-291 | with no pass left nothing is sent and the settings are unchanged; the angles of all passes together alternate 180, 0, 180, 0 … |
| Messagebox.ServoLoopPass | src/Messagebox.py:276-291 | a pass whose fetch fails ends the thread with its merged settings and no angles; a pass that succeeds sends its pulses, then the remaining passes run from its merged settings |
| Messagebox.ServoLoopConcat | src/Messagebox.py:276-291 | when every pass of a first run of replies fetches, the loop over that run followed by more replies sends the first run's angles, then the angles of the rest started from the settings the first run leaves |
| Messagebox.ServoEndsClosed | src/Messagebox.py:271-289 | the servo only ever receives 0 or 180, and the last angle sent is 0 |
| Messagebox.MutedServoStaysClosed | src/Messagebox.py:276-283 | while every reply says mute, the servo never opens: it is sent only the initial 0 |
| Messagebox.ServoSingleCycle | src/Messagebox.py:271-289 | one unmuted pass sends 0 and then exactly the merged rotation_count rounds; a muted pass sends only 0 |
| Messagebox.InitialConsistent | src/Messagebox.py:37-47 | a freshly constructed controller satisfies the consistency invariant |

## Left out

- Threads and timing are not modelled as concurrency.
  - The servo thread is a separate function, `RotateServo`. Each of its passes consumes one fetch reply, and the sequence ends where the main thread clears `do_run`.
  - The settings that thread merges are returned, but they are not fed back into the main loop's fields.
  - Sleeps are `Sleep` effects, not delays.
- Polling the lid button is reduced to the `AwaitOpen` and `AwaitClose` effects.
- The error handlers call `run()` recursively, so the stack grows with each error. Here a handler just produces the next state.
- The following are not part of this model: logging; the start-up banner; `print`; PIL drawing; fonts; text layout and image composition. Only the values chosen for drawing are modelled.
- `ServoMotor.py` and `main.py` are not part of this model.
- Inputs are given as parameters:
  - the random digits are `draws`;
  - the HTTP replies are `HttpReply` values;
  - the config file is a `Store`.
- HTTP request headers other than Authorization are not modelled.
- configparser's text format is not modelled: whitespace trimming, interpolation, key case folding, the DEFAULT section and comments. The store maps keys to values exactly.
- A file whose SETTINGS section lacks a key raises KeyError in the source (NoOptionError for SetUp, which is read with getboolean). Here both are a `MissingOption` error.
- A missing key in the backend's JSON (token, id, text, author name, colours) raises KeyError. Replies here always carry those fields.
- A body that is not a JSON object, and values that are not bool or int (the `bool()` and `int()` conversions), are not modelled.
- HostUrl.IsHostValid: IGNORECASE covers ASCII letters only, and `\d` is ASCII digits only. Python's Unicode case folding and Unicode digits are not modelled.
- DisplayRenderer.ParseHexColor: covers only the `#` hex forms of `ImageColor.getrgb`. Named colours and `rgb(...)` strings cannot start with `#` and never reach it. A colour followed by a newline is treated as invalid.
- Messagebox.InitialConsistent: the constructor holds an empty dict as the configuration and a client whose endpoint is None; the model starts from the default record and an empty endpoint instead. The two agree on every field a state reads before LOAD_CONFIG replaces them.
- Messagebox.Pulses: the delays around each servo move are not modelled.

## Findings

| source | as written | input that shows it | evidently intended | confidence | as-written member | corrected member |
|---|---|---|---|---|---|---|
| src/NetworkManager.py:56 | the InvalidResponseError message is built as a string plus the reply's dict, which raises TypeError. Nothing catches TypeError, so the program stops. The handler's own log line (src/Messagebox.py:221) repeats the mistake. | a 200 reply `{"message": {}}` with no "settings" key | raise InvalidResponseError, so that the fetch state polls again | high; not executed | Messagebox.IncompleteReplyStopsAsWritten | Messagebox.IncompleteReplyRetried |

=== FILE: ConfigHandler.dfy ===
/** The configuration handler (src/ConfigHandler.py) over an abstract key/value store.

    The file `config.ini` is a `Store`: either absent or a map from section names to
    the section's key/value strings, which is what configparser reads and writes. All
    values live in the SETTINGS section. */
module ConfigHandler {
  import opened Wrappers
  import opened HostUrl

  const Category: string := "SETTINGS"

  /** The configuration record: endpoint URL, bearer token, hardware ID, registered flag. */
  datatype Config = Config(endpoint: string, token: string, hardwareId: string, setUp: bool)

  /** The record a fresh handler starts with, and what `create_config` writes. */
  const DefaultConfig: Config := Config("", "", "", false)

  datatype Store = NoFile | File(sections: map<string, map<string, string>>)

  /** Why `load_config` raised: no file, no SETTINGS section, a missing key, an endpoint
      that fails `is_host_valid`, or a SetUp value configparser cannot read as a boolean. */
  datatype ConfigError =
    | FileNotFound
    | MissingSection
    | MissingOption(key: string)
    | InvalidHost(endpoint: string)
    | NotABoolean(value: string)

  predicate ConfigExists(st: Store) {
    st.File?
  }

  /** Python's `str` of a bool, which is how configparser stores SetUp. */
  function BoolText(b: bool): string {
    if b then "True" else "False"
  }

  /** The SETTINGS section written for `c`. */
  function Entries(c: Config): map<string, string> {
    map["Endpoint" := c.endpoint, "Token" := c.token, "HardwareId" := c.hardwareId, "SetUp" := BoolText(c.setUp)]
  }

  /** `write_config`: the SETTINGS section is replaced by the four fields of `c`; the
      other sections the parser holds are written back unchanged. */
  function WriteConfig(st: Store, c: Config): (r: Store)
    ensures r.File? && Category in r.sections
    ensures r.sections[Category].Keys == {"Endpoint", "Token", "HardwareId", "SetUp"}
    ensures r.sections[Category]["Endpoint"] == c.endpoint && r.sections[Category]["Token"] == c.token
    ensures r.sections[Category]["HardwareId"] == c.hardwareId
    ensures r.sections[Category]["SetUp"] == (if c.setUp then "True" else "False")
    ensures st.File? ==> forall k :: k in st.sections && k != Category ==> k in r.sections && r.sections[k] == st.sections[k]
    ensures st.File? ==> r.sections.Keys == st.sections.Keys + {Category}
  {
    var previous := if st.File? then st.sections else map[];
    File(previous[Category := Entries(c)])
  }

  /** `create_config`: any old file is removed, then the default record is written into
      a parser that has read nothing yet, so SETTINGS is the only section. */
  function CreateConfig(st: Store): (r: Store)
    ensures r.File? && r.sections.Keys == {Category}
    ensures r.sections[Category] == Entries(DefaultConfig)
  {
    WriteConfig(NoFile, DefaultConfig)
  }

  /** ASCII lower-casing; the boolean words are ASCII, and no other character lowers
      onto one of their letters. */
  function LowerString(s: string): (r: string)
    ensures |r| == |s|
    ensures forall k :: 0 <= k < |s| ==> r[k] == Lower(s[k])
  {
    if s == [] then [] else [Lower(s[0])] + LowerString(s[1..])
  }

  /** `getboolean`: configparser's boolean words, compared case-insensitively. */
  function ParseBoolean(v: string): (r: Option<bool>)
    ensures r == Some(true) <==> LowerString(v) in {"1", "yes", "true", "on"}
    ensures r == Some(false) <==> LowerString(v) in {"0", "no", "false", "off"}
  {
    var w := LowerString(v);
    if w in {"1", "yes", "true", "on"} then Some(true)
    else if w in {"0", "no", "false", "off"} then Some(false)
    else None
  }

  /** `str.replace('"', "")`: every double quote removed, everything else kept in order. */
  function RemoveQuotes(s: string): (r: string)
    ensures '"' !in r
    ensures forall c :: c != '"' ==> multiset(r)[c] == multiset(s)[c]
    ensures |r| <= |s|
  {
    if s == [] then []
    else
      assert s == [s[0]] + s[1..];
      (if s[0] == '"' then [] else [s[0]]) + RemoveQuotes(s[1..])
  }

  /** `load_config`. The order of the source is kept: the endpoint is read and validated
      (on the raw text, quotes included) before SetUp, Token and HardwareId are read,
      and quotes are stripped from the endpoint only after that. */
  function LoadConfig(st: Store): (r: Result<Config, ConfigError>)
    ensures r == Failure(FileNotFound) <==> st.NoFile?
    ensures r.Success? ==> Category in st.sections && "Endpoint" in st.sections[Category]
    ensures r.Success? ==>
              var sec := st.sections[Category];
              && IsHostValid(sec["Endpoint"])
              && r.value.endpoint == RemoveQuotes(sec["Endpoint"])
              && "Token" in sec && r.value.token == sec["Token"]
              && "HardwareId" in sec && r.value.hardwareId == sec["HardwareId"]
              && "SetUp" in sec && ParseBoolean(sec["SetUp"]) == Some(r.value.setUp)
    ensures r.Success? ==> '"' !in r.value.endpoint
    ensures st.File? && Category in st.sections && "Endpoint" in st.sections[Category]
            && !IsHostValid(st.sections[Category]["Endpoint"])
            ==> r == Failure(InvalidHost(st.sections[Category]["Endpoint"]))
  {
    match st
    case NoFile => Failure(FileNotFound)
    case File(sections) =>
      if Category !in sections then Failure(MissingSection)
      else
        var sec := sections[Category];
        if "Endpoint" !in sec then Failure(MissingOption("Endpoint"))
        else if !IsHostValid(sec["Endpoint"]) then Failure(InvalidHost(sec["Endpoint"]))
        else if "SetUp" !in sec then Failure(MissingOption("SetUp"))
        else
          match ParseBoolean(sec["SetUp"])
          case None => Failure(NotABoolean(sec["SetUp"]))
          case Some(setUp) =>
            if "Token" !in sec then Failure(MissingOption("Token"))
            else if "HardwareId" !in sec then Failure(MissingOption("HardwareId"))
            else Success(Config(RemoveQuotes(sec["Endpoint"]), sec["Token"], sec["HardwareId"], setUp))
  }

  /** One character: a quote disappears, anything else stays. */
  lemma RemoveQuotesChar(c: char)
    ensures RemoveQuotes([c]) == if c == '"' then [] else [c]
  {
    assert [c][1..] == [];
  }

  /** The cleanup works piecewise: the cleaned concatenation is the concatenation of
      the cleaned parts, so the characters kept stay in their order. */
  lemma {:induction false} RemoveQuotesAppend(a: string, b: string)
    ensures RemoveQuotes(a + b) == RemoveQuotes(a) + RemoveQuotes(b)
    decreases |a|
  {
    if a == [] {
      assert a + b == b;
    } else {
      assert (a + b)[0] == a[0];
      assert (a + b)[1..] == a[1..] + b;
      RemoveQuotesAppend(a[1..], b);
    }
  }

  lemma {:induction false} RemoveQuotesKeepsFirst(s: string)
    requires s != [] && s[0] != '"'
    ensures RemoveQuotes(s) != [] && RemoveQuotes(s)[0] == s[0]
  {
  }

  /** A value without quotes is returned unchanged by the cleanup. */
  lemma {:induction false} RemoveQuotesUnquoted(s: string)
    requires '"' !in s
    ensures RemoveQuotes(s) == s
    decreases |s|
  {
    if s != [] {
      assert '"' !in s[1..] by {
        forall k | 0 <= k < |s[1..]| ensures s[1..][k] != '"' {
          assert s[1..][k] == s[k + 1];
        }
      }
      RemoveQuotesUnquoted(s[1..]);
    }
  }

  /** A loaded endpoint is never empty: the raw value passed validation, so it starts
      with a scheme letter, which the cleanup keeps. */
  lemma LoadedEndpointNonEmpty(st: Store)
    requires LoadConfig(st).Success?
    ensures LoadConfig(st).value.endpoint != []
  {
    var raw := st.sections[Category]["Endpoint"];
    AcceptedHasScheme(raw);
    RemoveQuotesKeepsFirst(raw);
  }

  /** Validation sees the raw text: an endpoint written inside double quotes is rejected,
      even though the cleanup would have removed the quotes. */
  lemma QuotedEndpointRejected(st: Store, c: Config)
    requires c.endpoint != [] && c.endpoint[0] == '"'
    ensures LoadConfig(WriteConfig(st, c)) == Failure(InvalidHost(c.endpoint))
  {
    if IsHostValid(c.endpoint) {
      AcceptedHasScheme(c.endpoint);
    }
  }

  /** The default record cannot be loaded back: its empty endpoint fails validation. */
  lemma CreatedConfigRejected(st: Store)
    ensures LoadConfig(CreateConfig(st)) == Failure(InvalidHost(""))
  {
    if IsHostValid("") {
      AcceptedHasScheme("");
    }
  }

  /** Round trip on the store: what `write_config` writes, `load_config` reads back,
      with the endpoint's quotes removed; an endpoint that fails validation is the only
      way the load can fail. */
  lemma WriteThenLoad(st: Store, c: Config)
    ensures IsHostValid(c.endpoint) ==>
              LoadConfig(WriteConfig(st, c)) == Success(c.(endpoint := RemoveQuotes(c.endpoint)))
    ensures !IsHostValid(c.endpoint) ==> LoadConfig(WriteConfig(st, c)) == Failure(InvalidHost(c.endpoint))
  {
    var w := WriteConfig(st, c);
    assert w.sections[Category] == Entries(c);
    if c.setUp {
      assert LowerString("True") == "true";
    } else {
      assert LowerString("False") == "false";
    }
  }
}

=== FILE: DisplayRenderer.dfy ===
/** The arithmetic of the screen renderer (src/DisplayRenderer.py): colour parsing with
    the red/blue swap the ST7735 panel needs, the font size chosen for a message, the
    screen size under rotation, and the author line. Drawing itself is left out. */
module DisplayRenderer {
  import opened Wrappers
  import HostUrl

  /** A colour as three channel values. */
  datatype Rgb = Rgb(r: int, g: int, b: int) {
    predicate Valid() {
      0 <= r < 256 && 0 <= g < 256 && 0 <= b < 256
    }
  }

  /** Value of a hex digit, either case; -1 for anything else. */
  function HexValue(c: char): (v: int)
    ensures -1 <= v < 16
  {
    if '0' <= c <= '9' then (c as int) - ('0' as int)
    else if 'a' <= c <= 'f' then (c as int) - ('a' as int) + 10
    else if 'A' <= c <= 'F' then (c as int) - ('A' as int) + 10
    else -1
  }

  predicate IsHex(s: string) {
    forall k :: 0 <= k < |s| ==> HexValue(s[k]) >= 0
  }

  /** Value of two hex digits. */
  function Byte(hi: char, lo: char): int {
    HexValue(hi) * 16 + HexValue(lo)
  }

  /** `ImageColor.getrgb("#" + hex)` for the hex forms it accepts: 3 or 4 digits (each
      doubled), 6 or 8 digits; a fourth (alpha) channel is parsed but not used by the
      caller. Anything else raises ValueError, here `None`. */
  function ParseHexColor(hex: string): (c: Option<Rgb>)
    ensures c.Some? <==> IsHex(hex) && |hex| in {3, 4, 6, 8}
    ensures c.Some? ==> c.value.Valid()
    // The short forms double each digit: the channel is 17 times its digit.
    ensures c.Some? && |hex| <= 4 ==>
              c.value == Rgb(17 * HexValue(hex[0]), 17 * HexValue(hex[1]), 17 * HexValue(hex[2]))
    // The long forms read the first three pairs as base-16 numbers.
    ensures c.Some? && |hex| >= 6 ==>
              c.value == Rgb(16 * HexValue(hex[0]) + HexValue(hex[1]), 16 * HexValue(hex[2]) + HexValue(hex[3]),
                             16 * HexValue(hex[4]) + HexValue(hex[5]))
  {
    if !IsHex(hex) then None
    else if |hex| == 3 || |hex| == 4 then Some(Rgb(Byte(hex[0], hex[0]), Byte(hex[1], hex[1]), Byte(hex[2], hex[2])))
    else if |hex| == 6 || |hex| == 8 then Some(Rgb(Byte(hex[0], hex[1]), Byte(hex[2], hex[3]), Byte(hex[4], hex[5])))
    else None
  }

  /** Hex digits are read without regard to letter case. */
  lemma HexValueIgnoresCase(c: char)
    ensures HexValue(c) == HexValue(HostUrl.Lower(c))
    ensures '0' <= c <= '9' ==> HexValue(c) == (c as int) - ('0' as int)
    ensures ('a' <= c <= 'f' || 'A' <= c <= 'F') ==> HexValue(c) == (HostUrl.Lower(c) as int) - ('a' as int) + 10
    ensures HexValue(c) >= 0 <==> '0' <= c <= '9' || 'a' <= c <= 'f' || 'A' <= c <= 'F'
  {
  }

  /** A spelling that differs from another only in letter case parses to the same
      colour, or fails in the same way. */
  lemma {:induction false} ParseIgnoresCase(hex: string, other: string)
    requires |hex| == |other|
    requires forall k :: 0 <= k < |hex| ==> HostUrl.Lower(hex[k]) == HostUrl.Lower(other[k])
    ensures ParseHexColor(hex) == ParseHexColor(other)
  {
    forall k | 0 <= k < |hex|
      ensures HexValue(hex[k]) == HexValue(other[k])
    {
      HexValueIgnoresCase(hex[k]);
      HexValueIgnoresCase(other[k]);
    }
    assert IsHex(hex) <==> IsHex(other);
  }

  /** Swap of the red and blue channels. */
  function SwapRedBlue(c: Rgb): (s: Rgb)
    ensures s.r == c.b && s.g == c.g && s.b == c.r
  {
    Rgb(c.b, c.g, c.r)
  }

  /** `get_swaped_rdb`: parse, then swap red and blue. */
  function SwappedColor(hex: string): (c: Option<Rgb>)
    ensures c.Some? <==> ParseHexColor(hex).Some?
    ensures c.Some? ==> c.value == SwapRedBlue(ParseHexColor(hex).value)
  {
    match ParseHexColor(hex)
    case None => None
    case Some(rgb) => Some(SwapRedBlue(rgb))
  }

  /** The swap is its own inverse and never touches green. */
  lemma SwapInvolution(c: Rgb)
    ensures SwapRedBlue(SwapRedBlue(c)) == c
    ensures SwapRedBlue(c).g == c.g
  {
  }

  /** The lower-case hex digit of `d`. */
  function HexDigit(d: int): (c: char)
    requires 0 <= d < 16
    ensures HexValue(c) == d
  {
    if d < 10 then ((d + '0' as int) as char) else ((d - 10 + 'a' as int) as char)
  }

  /** Six-digit hex spelling of a colour, the form the backend sends. */
  function HexOf(c: Rgb): (h: string)
    requires c.Valid()
    ensures |h| == 6 && IsHex(h)
  {
    [HexDigit(c.r / 16), HexDigit(c.r % 16), HexDigit(c.g / 16), HexDigit(c.g % 16),
     HexDigit(c.b / 16), HexDigit(c.b % 16)]
  }

  /** Parsing the six-digit spelling of a colour gives the colour back, and the
      renderer's colour is that colour with red and blue exchanged. */
  lemma HexRoundTrip(c: Rgb)
    requires c.Valid()
    ensures ParseHexColor(HexOf(c)) == Some(c)
    ensures SwappedColor(HexOf(c)) == Some(Rgb(c.b, c.g, c.r))
  {
    var h := HexOf(c);
    assert Byte(h[0], h[1]) == c.r;
    assert Byte(h[2], h[3]) == c.g;
    assert Byte(h[4], h[5]) == c.b;
  }

  /** Parsing the three-digit spelling gives each digit doubled, and the four-digit
      form's alpha digit is ignored. */
  lemma ShortHexRoundTrip(x: int, y: int, z: int, alpha: int)
    requires 0 <= x < 16 && 0 <= y < 16 && 0 <= z < 16 && 0 <= alpha < 16
    ensures ParseHexColor([HexDigit(x), HexDigit(y), HexDigit(z)]) == Some(Rgb(17 * x, 17 * y, 17 * z))
    ensures ParseHexColor([HexDigit(x), HexDigit(y), HexDigit(z), HexDigit(alpha)]) == Some(Rgb(17 * x, 17 * y, 17 * z))
  {
    var h := [HexDigit(x), HexDigit(y), HexDigit(z)];
    assert IsHex(h);
    var h4 := h + [HexDigit(alpha)];
    assert IsHex(h4);
  }

  /** Any letter-case spelling of a colour's six digits, upper case included, parses
      to that colour. */
  lemma AnyCaseRoundTrip(c: Rgb, spelled: string)
    requires c.Valid() && |spelled| == 6
    requires forall k :: 0 <= k < 6 ==> HostUrl.Lower(spelled[k]) == HostUrl.Lower(HexOf(c)[k])
    ensures ParseHexColor(spelled) == Some(c)
  {
    HexRoundTrip(c);
    ParseIgnoresCase(spelled, HexOf(c));
  }

  /** The font size for a message of `chars` characters, where `maxChars` is the
      configured MESSAGE_CHAR_LENGTH. The first matching band wins, and a length in no
      band keeps the default 13. */
  function FontSize(chars: nat, maxChars: int): (size: int)
    ensures size in {12, 13, 15, 18}
    ensures 120 <= chars <= maxChars ==> size == 12
    ensures 80 < chars < 120 ==> size == 13
    ensures chars == 120 && maxChars < 120 ==> size == 13
    ensures 50 < chars <= 80 ==> size == 15
    ensures chars <= 50 ==> size == 18
    ensures chars > 120 && chars > maxChars ==> size == 13
  {
    var default := 13;
    if chars >= 120 && chars <= maxChars then 12
    else if chars > 80 && chars <= 120 then 13
    else if chars > 50 && chars <= 80 then 15
    else if chars <= 50 then 18
    else default
  }

  /** Up to the configured limit, a longer message never gets a larger font. */
  lemma FontSizeMonotone(a: nat, b: nat, maxChars: int)
    requires a <= b && (b <= maxChars || b <= 120)
    ensures FontSize(b, maxChars) <= FontSize(a, maxChars)
  {
  }

  /** Past the limit the default 13 comes back, so 12 is not the smallest size for every
      longer text: the font size is not monotone over all lengths. */
  lemma FontSizeNotMonotoneBeyondLimit(maxChars: int)
    requires 120 <= maxChars
    ensures FontSize(maxChars, maxChars) == 12 && FontSize(maxChars + 1, maxChars) == 13
  {
  }

  /** `_display_dimensions`: width and height exchange places when the panel is rotated
      by a quarter turn. Python's `%` by a positive modulus agrees with Dafny's. */
  function DisplayDimensions(rotation: int, width: int, height: int): (wh: (int, int))
    ensures rotation % 180 == 90 ==> wh == (height, width)
    ensures rotation % 180 != 90 ==> wh == (width, height)
    ensures multiset{wh.0, wh.1} == multiset{width, height}
  {
    if rotation % 180 == 90 then (height, width) else (width, height)
  }

  /** Rotations that differ by a half turn give the same dimensions, and applying the
      quarter-turn swap twice restores the panel's own size. */
  lemma DimensionsHalfTurn(rotation: int, width: int, height: int)
    ensures DisplayDimensions(rotation + 180, width, height) == DisplayDimensions(rotation, width, height)
    ensures var wh := DisplayDimensions(rotation, width, height);
            DisplayDimensions(rotation, wh.0, wh.1) == (width, height)
  {
    assert (rotation + 180) % 180 == rotation % 180;
  }

  const AuthorPrefix: string := "from "

  /** The line drawn under a message. */
  function AuthorLine(author: string): (line: string)
    ensures |line| == |AuthorPrefix| + |author|
    ensures line[..|AuthorPrefix|] == AuthorPrefix && line[|AuthorPrefix|..] == author
  {
    AuthorPrefix + author
  }
}

=== FILE: HardwareId.dfy ===
/** The device's hardware ID (src/Messagebox.py:102-103 and 141-143): generated as a
    string of random decimal digits, and shown on screen in groups of three. */
module HardwareId {

  predicate IsDigitString(s: string) {
    forall k :: 0 <= k < |s| ==> '0' <= s[k] <= '9'
  }

  /** The random choices are a parameter: `draws[k]` is the index into "0123456789" that
      `random.choice` picked for position k. */
  predicate ValidDraws(draws: seq<int>) {
    forall k :: 0 <= k < |draws| ==> 0 <= draws[k] < 10
  }

  /** `generate_hardware_id`: one decimal digit per draw. */
  function GenerateHardwareId(draws: seq<int>): (id: string)
    requires ValidDraws(draws)
    ensures |id| == |draws| && IsDigitString(id)
    ensures forall k :: 0 <= k < |id| ==> (id[k] as int) - ('0' as int) == draws[k]
  {
    seq(|draws|, k requires 0 <= k < |draws| => (('0' as int) + draws[k]) as char)
  }

  /** `s[start::3]` */
  function Stride(s: string, start: nat): (t: string)
    requires start < 3
    ensures |t| == (|s| + 2 - start) / 3
    ensures forall i :: 0 <= i < |t| ==> start + 3 * i < |s| && t[i] == s[start + 3 * i]
  {
    seq((|s| + 2 - start) / 3, i requires 0 <= i < (|s| + 2 - start) / 3 => s[start + 3 * i])
  }

  function Min(a: int, b: int): int {
    if a <= b then a else b
  }

  /** `" ".join(parts)` */
  function JoinSpaces(parts: seq<string>): string
    decreases |parts|
  {
    if |parts| == 0 then []
    else if |parts| == 1 then parts[0]
    else JoinSpaces(parts[..|parts| - 1]) + " " + parts[|parts| - 1]
  }

  /** `zip(id[::3], id[1::3], id[2::3])`, each triple as a three-character string; the
      zip stops at the shortest stride. */
  function ZippedStrides(id: string): seq<string> {
    var a, b, c := Stride(id, 0), Stride(id, 1), Stride(id, 2);
    var m := Min(Min(|a|, |b|), |c|);
    seq(m, i requires 0 <= i < m => [a[i], b[i], c[i]])
  }

  /** The ID text of the registration screen: the zipped triples joined by spaces, which
      are the consecutive three-character blocks of the ID. */
  function GroupTriplets(id: string): (r: string)
    ensures r == JoinSpaces(Chunks(id))
  {
    StridesZipToChunks(id);
    JoinSpaces(ZippedStrides(id))
  }

  /** The consecutive three-character blocks of `s`, without the remainder. */
  function Chunks(s: string): (cs: seq<string>)
    ensures |cs| == |s| / 3
    ensures forall i :: 0 <= i < |cs| ==> 3 * i + 3 <= |s| && cs[i] == s[3 * i..3 * i + 3]
  {
    seq(|s| / 3, i requires 0 <= i < |s| / 3 => s[3 * i..3 * i + 3])
  }

  function Concat(parts: seq<string>): string
    decreases |parts|
  {
    if |parts| == 0 then [] else Concat(parts[..|parts| - 1]) + parts[|parts| - 1]
  }

  /** The text with every space removed. */
  function RemoveSpaces(s: string): (r: string)
    ensures ' ' !in r
    decreases |s|
  {
    if s == [] then []
    else RemoveSpaces(s[..|s| - 1]) + (if s[|s| - 1] == ' ' then [] else [s[|s| - 1]])
  }

  lemma {:induction false} RemoveSpacesAppend(a: string, b: string)
    ensures RemoveSpaces(a + b) == RemoveSpaces(a) + RemoveSpaces(b)
    decreases |b|
  {
    if b != [] {
      var ab := a + b;
      assert ab[..|ab| - 1] == a + b[..|b| - 1];
      assert ab[|ab| - 1] == b[|b| - 1];
      RemoveSpacesAppend(a, b[..|b| - 1]);
    } else {
      assert a + b == a;
    }
  }

  lemma {:induction false} RemoveSpacesNoSpace(s: string)
    requires ' ' !in s
    ensures RemoveSpaces(s) == s
    decreases |s|
  {
    if s != [] {
      var init := s[..|s| - 1];
      assert ' ' !in init by {
        forall k | 0 <= k < |init| ensures init[k] != ' ' {
          assert init[k] == s[k];
        }
      }
      RemoveSpacesNoSpace(s[..|s| - 1]);
      assert s[..|s| - 1] + [s[|s| - 1]] == s;
    }
  }

  /** Joining with spaces and then removing the spaces concatenates the parts. */
  lemma {:induction false} RemoveSpacesJoin(parts: seq<string>)
    requires forall i :: 0 <= i < |parts| ==> ' ' !in parts[i]
    ensures RemoveSpaces(JoinSpaces(parts)) == Concat(parts)
    decreases |parts|
  {
    if |parts| == 1 {
      RemoveSpacesNoSpace(parts[0]);
      assert parts[..0] == [];
    } else if |parts| > 1 {
      var init, last := parts[..|parts| - 1], parts[|parts| - 1];
      RemoveSpacesJoin(init);
      RemoveSpacesAppend(JoinSpaces(init) + " ", last);
      RemoveSpacesAppend(JoinSpaces(init), " ");
      assert RemoveSpaces(" ") == [] by {
        assert " "[..0] == [];
      }
      RemoveSpacesNoSpace(last);
    }
  }

  /** Concatenating the first m blocks gives the first 3m characters. */
  lemma {:induction false} ConcatChunks(s: string, m: nat)
    requires m <= |s| / 3
    ensures Concat(Chunks(s)[..m]) == s[..3 * m]
    decreases m
  {
    if m > 0 {
      var cs := Chunks(s);
      assert cs[..m][..m - 1] == cs[..m - 1];
      ConcatChunks(s, m - 1);
      assert cs[..m][m - 1] == s[3 * (m - 1)..3 * m];
      assert s[..3 * (m - 1)] + s[3 * (m - 1)..3 * m] == s[..3 * m];
    }
  }

  lemma {:induction false} JoinLength(parts: seq<string>)
    requires forall i :: 0 <= i < |parts| ==> |parts[i]| == 3
    ensures |JoinSpaces(parts)| == if |parts| == 0 then 0 else 4 * |parts| - 1
    decreases |parts|
  {
    if |parts| > 1 {
      JoinLength(parts[..|parts| - 1]);
    }
  }

  /** The zipped strides are exactly the consecutive blocks of three. */
  lemma StridesZipToChunks(id: string)
    ensures ZippedStrides(id) == Chunks(id)
  {
    var a, b, c := Stride(id, 0), Stride(id, 1), Stride(id, 2);
    var m := Min(Min(|a|, |b|), |c|);
    assert m == |id| / 3;
    var zipped := ZippedStrides(id);
    var cs := Chunks(id);
    assert |zipped| == |cs|;
    forall i | 0 <= i < m
      ensures zipped[i] == cs[i]
    {
      assert cs[i] == id[3 * i..3 * i + 3];
    }
  }

  lemma ChunksNoSpace(id: string)
    requires ' ' !in id
    ensures forall i :: 0 <= i < |Chunks(id)| ==> ' ' !in Chunks(id)[i]
  {
    var cs := Chunks(id);
    forall i | 0 <= i < |cs|
      ensures ' ' !in cs[i]
    {
      var chunk := cs[i];
      assert chunk == id[3 * i..3 * i + 3];
      forall k | 0 <= k < |chunk| ensures chunk[k] != ' ' {
        assert chunk[k] == id[3 * i + k];
      }
    }
  }

  lemma JoinedChunksSpaces(id: string)
    requires ' ' !in id
    ensures RemoveSpaces(JoinSpaces(Chunks(id))) == id[..3 * (|id| / 3)]
  {
    var cs := Chunks(id);
    ChunksNoSpace(id);
    RemoveSpacesJoin(cs);
    ConcatChunks(id, |id| / 3);
    assert cs[..|id| / 3] == cs;
  }

  lemma JoinedChunksLength(id: string)
    ensures |JoinSpaces(Chunks(id))| == if |id| < 3 then 0 else 4 * (|id| / 3) - 1
  {
    JoinLength(Chunks(id));
  }

  /** The grouping of the registration screen: removing the spaces leaves the first
      3 * (n / 3) characters, so a trailing one or two characters are not shown, and
      the text has 4 * (n / 3) - 1 characters (one space between groups). */
  lemma TripletsDropRemainder(id: string)
    requires ' ' !in id
    ensures RemoveSpaces(GroupTriplets(id)) == id[..3 * (|id| / 3)]
    ensures |GroupTriplets(id)| == if |id| < 3 then 0 else 4 * (|id| / 3) - 1
  {
    JoinedChunksSpaces(id);
    JoinedChunksLength(id);
  }

  /** A generated ID of n digits shows its first 3 * (n / 3) digits in groups. */
  lemma GeneratedIdGrouping(draws: seq<int>)
    requires ValidDraws(draws)
    ensures var id := GenerateHardwareId(draws);
            RemoveSpaces(GroupTriplets(id)) == id[..3 * (|draws| / 3)]
  {
    var id := GenerateHardwareId(draws);
    assert ' ' !in id by {
      forall k | 0 <= k < |id| ensures id[k] != ' ' {
        assert '0' <= id[k] <= '9';
      }
    }
    TripletsDropRemainder(id);
  }
}

=== FILE: HostUrl.dfy ===
/** The endpoint grammar of the configuration handler (src/ConfigHandler.py:25-38),
    written as a recognizer instead of a regular expression.

    The pattern is matched with `re.match` and `re.IGNORECASE`:

      ^ (http|ftp)s?://
        ( (label\.)+ tld  |  localhost  |  d{1,3}.d{1,3}.d{1,3}.d{1,3} )
        (:digits)?
        ( /?  |  [/?] non-space+ ) $

    A backtracking matcher accepts exactly when SOME split of the string fits the
    pattern, so the splits are existentials. Python's `$` also matches just before a
    final newline, which `IsHostValid` models. */
module HostUrl {
  import opened Wrappers

  /** ASCII lower-casing: the part of IGNORECASE this model covers. */
  function Lower(c: char): char {
    if 'A' <= c <= 'Z' then ((c as int) + 32) as char else c
  }

  predicate IsDigit(c: char) {
    '0' <= c <= '9'
  }

  predicate IsLetter(c: char) {
    'A' <= c <= 'Z' || 'a' <= c <= 'z'
  }

  predicate IsAlnum(c: char) {
    IsLetter(c) || IsDigit(c)
  }

  /** The characters `\s` matches in a str pattern (those for which `str.isspace` holds). */
  predicate IsSpace(c: char) {
    var n := c as int;
    (9 <= n <= 13) || (28 <= n <= 32) || n == 0x85 || n == 0xA0 || n == 0x1680
    || (0x2000 <= n <= 0x200A) || n == 0x2028 || n == 0x2029 || n == 0x202F
    || n == 0x205F || n == 0x3000
  }

  /** `s` begins with the lower-case literal `p`, ignoring ASCII case. */
  predicate StartsWithCI(s: string, p: string) {
    |p| <= |s| && forall k :: 0 <= k < |p| ==> Lower(s[k]) == p[k]
  }

  const Schemes: seq<string> := ["http://", "https://", "ftp://", "ftps://"]

  /** Length of the `(?:http|ftp)s?://` prefix; the four spellings exclude each other,
      so the prefix is unique when it exists. */
  function SchemeLength(s: string): (n: Option<nat>)
    ensures n.Some? <==> exists p :: p in Schemes && StartsWithCI(s, p)
    ensures n.Some? ==> n.value <= |s| && exists p :: p in Schemes && |p| == n.value && StartsWithCI(s, p)
  {
    if StartsWithCI(s, "http://") then Some(7)
    else if StartsWithCI(s, "https://") then Some(8)
    else if StartsWithCI(s, "ftp://") then Some(6)
    else if StartsWithCI(s, "ftps://") then Some(7)
    else None
  }

  /** `[A-Z0-9](?:[A-Z0-9-]{0,61}[A-Z0-9])?`: 1 to 63 characters, alphanumeric at both
      ends, hyphens allowed inside. */
  predicate Label(l: string) {
    1 <= |l| <= 63 && IsAlnum(l[0]) && IsAlnum(l[|l| - 1])
    && forall k :: 0 <= k < |l| ==> IsAlnum(l[k]) || l[k] == '-'
  }

  /** `(?:label\.)+`: one or more labels, each followed by a dot. */
  predicate Labels(d: string)
    decreases |d|
  {
    exists i :: 0 < i < |d| && d[i] == '.' && Label(d[..i]) && (i + 1 == |d| || Labels(d[i + 1..]))
  }

  /** `[A-Z]{2,6}` or `[A-Z0-9-]{2,}`. */
  predicate TldCore(t: string) {
    2 <= |t|
    && ((|t| <= 6 && forall k :: 0 <= k < |t| ==> IsLetter(t[k]))
        || forall k :: 0 <= k < |t| ==> IsAlnum(t[k]) || t[k] == '-')
  }

  /** A top-level label with an optional trailing dot. */
  predicate Tld(t: string) {
    TldCore(t) || (|t| >= 1 && t[|t| - 1] == '.' && TldCore(t[..|t| - 1]))
  }

  predicate Domain(h: string) {
    exists i :: 0 < i < |h| && Labels(h[..i]) && Tld(h[i..])
  }

  predicate IsLocalhost(h: string) {
    |h| == 9 && StartsWithCI(h, "localhost")
  }

  /** `\d{1,3}` (ASCII digits; the value is not range-checked). */
  predicate DigitGroup(g: string) {
    1 <= |g| <= 3 && forall k :: 0 <= k < |g| ==> IsDigit(g[k])
  }

  /** `n` digit groups separated by single dots. */
  predicate DigitGroups(h: string, n: nat)
    decreases n
  {
    if n <= 1 then DigitGroup(h)
    else exists i :: 0 < i < |h| && h[i] == '.' && DigitGroup(h[..i]) && DigitGroups(h[i + 1..], n - 1)
  }

  predicate Host(h: string) {
    Domain(h) || IsLocalhost(h) || DigitGroups(h, 4)
  }

  /** `(?::\d+)?` */
  predicate Port(p: string) {
    p == [] || (|p| >= 2 && p[0] == ':' && forall k :: 1 <= k < |p| ==> IsDigit(p[k]))
  }

  /** `(?:/?|[/?]\S+)` */
  predicate Tail(t: string) {
    t == [] || t == "/"
    || (|t| >= 2 && (t[0] == '/' || t[0] == '?') && forall k :: 1 <= k < |t| ==> !IsSpace(t[k]))
  }

  /** Everything after the scheme: host, optional port, optional path, to the end. */
  predicate Authority(r: string) {
    exists i, j :: 0 <= i <= j <= |r| && Host(r[..i]) && Port(r[i..j]) && Tail(r[j..])
  }

  predicate FullMatch(s: string) {
    var n := SchemeLength(s);
    n.Some? && Authority(s[n.value..])
  }

  /** `is_host_valid`: the pattern matches, where `$` may also sit before a final newline. */
  predicate IsHostValid(s: string) {
    FullMatch(s) || (|s| >= 1 && s[|s| - 1] == '\n' && FullMatch(s[..|s| - 1]))
  }

  predicate NoSpace(s: string) {
    forall k :: 0 <= k < |s| ==> !IsSpace(s[k])
  }

  lemma NoSpaceConcat(a: string, b: string)
    requires NoSpace(a) && NoSpace(b)
    ensures NoSpace(a + b)
  {
    forall k | 0 <= k < |a + b|
      ensures !IsSpace((a + b)[k])
    {
      if k >= |a| {
        assert (a + b)[k] == b[k - |a|];
      }
    }
  }

  /** Every character the host and port parts may use is a non-space. */
  predicate HostChar(c: char) {
    IsAlnum(c) || c == '-' || c == '.' || c == ':'
  }

  lemma HostCharsNoSpace(s: string)
    requires forall k :: 0 <= k < |s| ==> HostChar(s[k])
    ensures NoSpace(s)
  {
  }

  lemma {:induction false} LabelsHostChars(d: string)
    requires Labels(d)
    ensures forall k :: 0 <= k < |d| ==> HostChar(d[k])
    decreases |d|
  {
    var i :| 0 < i < |d| && d[i] == '.' && Label(d[..i]) && (i + 1 == |d| || Labels(d[i + 1..]));
    if i + 1 < |d| {
      LabelsHostChars(d[i + 1..]);
    }
    forall k | 0 <= k < |d| ensures HostChar(d[k]) {
      if k < i {
        assert d[k] == d[..i][k];
      } else if k > i {
        assert d[k] == d[i + 1..][k - i - 1];
      }
    }
  }

  lemma {:induction false} DigitGroupsHostChars(h: string, n: nat)
    requires DigitGroups(h, n)
    ensures forall k :: 0 <= k < |h| ==> HostChar(h[k])
    decreases n
  {
    if n > 1 {
      var i :| 0 < i < |h| && h[i] == '.' && DigitGroup(h[..i]) && DigitGroups(h[i + 1..], n - 1);
      DigitGroupsHostChars(h[i + 1..], n - 1);
      forall k | 0 <= k < |h| ensures HostChar(h[k]) {
        if k < i {
          assert h[k] == h[..i][k];
        } else if k > i {
          assert h[k] == h[i + 1..][k - i - 1];
        }
      }
    }
  }

  lemma TldHostChars(t: string)
    requires Tld(t)
    ensures forall k :: 0 <= k < |t| ==> HostChar(t[k])
  {
    if !TldCore(t) {
      forall k | 0 <= k < |t| - 1 ensures HostChar(t[k]) {
        assert t[k] == t[..|t| - 1][k];
      }
    }
  }

  lemma HostHostChars(h: string)
    requires Host(h)
    ensures forall k :: 0 <= k < |h| ==> HostChar(h[k])
  {
    if Domain(h) {
      var i :| 0 < i < |h| && Labels(h[..i]) && Tld(h[i..]);
      LabelsHostChars(h[..i]);
      TldHostChars(h[i..]);
      forall k | 0 <= k < |h| ensures HostChar(h[k]) {
        if k < i {
          assert h[k] == h[..i][k];
        } else {
          assert h[k] == h[i..][k - i];
        }
      }
    } else if DigitGroups(h, 4) {
      DigitGroupsHostChars(h, 4);
    } else {
      forall k | 0 <= k < |h| ensures HostChar(h[k]) {
        assert Lower(h[k]) == "localhost"[k];
      }
    }
  }

  lemma SchemeNoSpace(s: string, p: string)
    requires p in Schemes && StartsWithCI(s, p)
    ensures NoSpace(s[..|p|])
  {
    forall k | 0 <= k < |p| ensures !IsSpace(s[..|p|][k]) {
      assert Lower(s[k]) == p[k];
    }
  }

  lemma TailNoSpace(t: string)
    requires Tail(t)
    ensures NoSpace(t)
  {
    if t == "/" {
      assert !IsSpace(t[0]);
    }
  }

  lemma AuthorityNoSpace(r: string, i: nat, j: nat)
    requires 0 <= i <= j <= |r| && Host(r[..i]) && Port(r[i..j]) && Tail(r[j..])
    ensures NoSpace(r)
  {
    HostHostChars(r[..i]);
    HostCharsNoSpace(r[..i]);
    assert NoSpace(r[i..j]) by {
      forall k | 0 <= k < j - i ensures !IsSpace(r[i..j][k]) {
        assert HostChar(r[i..j][k]);
      }
    }
    TailNoSpace(r[j..]);
    NoSpaceConcat(r[..i], r[i..j]);
    assert r[..i] + r[i..j] == r[..j];
    NoSpaceConcat(r[..j], r[j..]);
    assert r[..j] + r[j..] == r;
  }

  lemma AuthorityHasNoSpace(r: string)
    requires Authority(r)
    ensures NoSpace(r)
  {
    var i, j :| 0 <= i <= j <= |r| && Host(r[..i]) && Port(r[i..j]) && Tail(r[j..]);
    AuthorityNoSpace(r, i, j);
  }

  lemma SchemePrefixNoSpace(s: string, n: nat)
    requires SchemeLength(s) == Some(n)
    ensures n <= |s| && NoSpace(s[..n])
  {
    var p :| p in Schemes && |p| == n && StartsWithCI(s, p);
    SchemeNoSpace(s, p);
  }

  lemma FullMatchNoSpace(s: string)
    requires FullMatch(s)
    ensures NoSpace(s)
  {
    var n := SchemeLength(s).value;
    AuthorityHasNoSpace(s[n..]);
    SchemePrefixNoSpace(s, n);
    NoSpaceConcat(s[..n], s[n..]);
    assert s[..n] + s[n..] == s;
  }

  /** No accepted endpoint contains white space, apart from the final newline that
      `$` lets through. */
  lemma AcceptedHasNoSpace(s: string)
    requires IsHostValid(s)
    ensures NoSpace(s) || (s[|s| - 1] == '\n' && NoSpace(s[..|s| - 1]))
  {
    if FullMatch(s) {
      FullMatchNoSpace(s);
    } else {
      FullMatchNoSpace(s[..|s| - 1]);
    }
  }

  /** Every accepted endpoint starts with one of the four schemes, in any letter case;
      in particular "" and a value wrapped in double quotes are rejected. */
  lemma AcceptedHasScheme(s: string)
    requires IsHostValid(s)
    ensures exists p :: p in Schemes && StartsWithCI(s, p)
    ensures s != [] && s[0] != '"'
  {
    if !FullMatch(s) {
      var t := s[..|s| - 1];
      var p :| p in Schemes && StartsWithCI(t, p);
      assert StartsWithCI(s, p);
    }
  }

  // Building accepted strings from their parts.

  lemma LabelsCons(l: string, rest: string)
    requires Label(l) && (rest == [] || Labels(rest))
    ensures Labels(l + "." + rest)
  {
    var d := l + "." + rest;
    assert d[..|l|] == l && d[|l|] == '.' && d[|l| + 1..] == rest;
  }

  lemma DomainOf(l: string, t: string)
    requires Labels(l) && Tld(t)
    ensures Domain(l + t)
  {
    var h := l + t;
    assert h[..|l|] == l && h[|l|..] == t;
  }

  lemma DigitGroupsCons(g: string, rest: string, n: nat)
    requires n >= 2 && DigitGroup(g) && DigitGroups(rest, n - 1)
    ensures DigitGroups(g + "." + rest, n)
  {
    var h := g + "." + rest;
    assert h[..|g|] == g && h[|g|] == '.' && h[|g| + 1..] == rest;
  }

  lemma AuthorityOf(h: string, p: string, t: string)
    requires Host(h) && Port(p) && Tail(t)
    ensures Authority(h + p + t)
  {
    var r := h + p + t;
    assert r[..|h|] == h && r[|h|..|h| + |p|] == p && r[|h| + |p|..] == t;
  }

  lemma FullMatchOf(scheme: string, rest: string)
    requires scheme in Schemes && Authority(rest)
    ensures IsHostValid(scheme + rest)
  {
    var s := scheme + rest;
    assert s[..|scheme|] == scheme;
    assert StartsWithCI(s, scheme);
    assert SchemeLength(s) == Some(|scheme|) by {
      if scheme == "https://" {
        assert Lower(s[4]) != "http://"[4];
      } else if scheme == "ftps://" {
        assert Lower(s[0]) != "http://"[0];
        assert Lower(s[3]) != "ftp://"[3];
      }
    }
    assert s[|scheme|..] == rest;
  }

  predicate AllDigits(s: string) {
    forall k :: 0 <= k < |s| ==> IsDigit(s[k])
  }

  lemma LocalhostAuthority(host: string, port: string)
    requires IsLocalhost(host) && port != [] && AllDigits(port)
    ensures Authority(host + ":" + port)
  {
    var p := ":" + port;
    assert Port(p) by {
      forall k | 1 <= k < |p| ensures IsDigit(p[k]) {
        assert p[k] == port[k - 1];
      }
    }
    AuthorityOf(host, p, "");
    assert host + p + "" == host + ":" + port;
  }

  /** Accepted: any scheme, "localhost" in any letter case, and a port of one or more
      digits. */
  lemma LocalhostAccepted(scheme: string, host: string, port: string)
    requires scheme in Schemes && IsLocalhost(host) && port != [] && AllDigits(port)
    ensures IsHostValid(scheme + host + ":" + port)
  {
    LocalhostAuthority(host, port);
    FullMatchOf(scheme, host + ":" + port);
    PortAssoc(scheme, host, port);
  }

  lemma PortAssoc(s: string, h: string, p: string)
    ensures s + (h + ":" + p) == s + h + ":" + p
  {
  }

  lemma DomainAssoc(s: string, n: string, t: string, p: string)
    ensures s + (n + "." + t + p) == s + n + "." + t + p
  {
  }

  lemma QuadAssoc(s: string, a: string, b: string, c: string, d: string)
    ensures s + (a + "." + (b + "." + (c + "." + d))) == s + a + "." + b + "." + c + "." + d
  {
  }

  lemma LabelsOne(l: string)
    requires Label(l)
    ensures Labels(l + ".")
  {
    var d := l + ".";
    assert d[..|l|] == l;
  }

  lemma AuthorityNoPort(h: string, t: string)
    requires Host(h) && Tail(t)
    ensures Authority(h + t)
  {
    var r := h + t;
    assert r[..|h|] == h && r[|h|..|h|] == [] && r[|h|..] == t;
  }

  lemma HostAuthority(h: string)
    requires Host(h)
    ensures Authority(h)
  {
    assert h[..|h|] == h && h[|h|..|h|] == [] && h[|h|..] == [];
  }

  lemma DomainAuthority(name: string, tld: string, path: string)
    requires Label(name) && TldCore(tld) && Tail(path)
    ensures Authority(name + "." + tld + path)
  {
    LabelsOne(name);
    DomainOf(name + ".", tld);
    AuthorityNoPort(name + "." + tld, path);
  }

  /** Accepted: one label, a dot, a top-level label and a path. */
  lemma DomainAccepted(scheme: string, name: string, tld: string, path: string)
    requires scheme in Schemes && Label(name) && TldCore(tld) && Tail(path)
    ensures IsHostValid(scheme + name + "." + tld + path)
  {
    DomainAuthority(name, tld, path);
    FullMatchOf(scheme, name + "." + tld + path);
    DomainAssoc(scheme, name, tld, path);
  }

  lemma QuadAuthority(a: string, b: string, c: string, d: string)
    requires DigitGroup(a) && DigitGroup(b) && DigitGroup(c) && DigitGroup(d)
    ensures Authority(a + "." + (b + "." + (c + "." + d)))
  {
    DigitGroupsCons(c, d, 2);
    DigitGroupsCons(b, c + "." + d, 3);
    DigitGroupsCons(a, b + "." + (c + "." + d), 4);
    HostAuthority(a + "." + (b + "." + (c + "." + d)));
  }

  /** Accepted: any four dot-separated groups of one to three digits; the groups are not
      checked against the octet range, so "999.999.999.999" passes. */
  lemma OctetsNotRangeChecked(scheme: string, a: string, b: string, c: string, d: string)
    requires scheme in Schemes
    requires DigitGroup(a) && DigitGroup(b) && DigitGroup(c) && DigitGroup(d)
    ensures IsHostValid(scheme + a + "." + b + "." + c + "." + d)
  {
    QuadAuthority(a, b, c, d);
    var r := a + "." + (b + "." + (c + "." + d));
    FullMatchOf(scheme, r);
    QuadAssoc(scheme, a, b, c, d);
  }

  /** A string of host characters ended by a lone `?`: the `?` can start no path
      (`[/?]\S+` needs a character after it), so no split of it is an authority. */
  predicate BareQuery(r: string) {
    |r| >= 1 && r[|r| - 1] == '?' && forall k :: 0 <= k < |r| - 1 ==> HostChar(r[k])
  }

  lemma TailOfBareQuery(r: string, j: nat)
    requires BareQuery(r) && j <= |r| && Tail(r[j..])
    ensures j == |r|
  {
  }

  lemma PortOfBareQuery(r: string, i: nat)
    requires BareQuery(r) && i <= |r| && Port(r[i..])
    ensures i == |r|
  {
  }

  lemma HostOfBareQuery(r: string)
    requires BareQuery(r)
    ensures !Host(r)
  {
    if Host(r) {
      HostHostChars(r);
    }
  }

  lemma BareQueryNotAuthority(r: string)
    requires BareQuery(r)
    ensures !Authority(r)
  {
    forall i, j | 0 <= i <= j <= |r| && Host(r[..i]) && Port(r[i..j]) && Tail(r[j..])
      ensures false
    {
      TailOfBareQuery(r, j);
      assert r[i..j] == r[i..];
      PortOfBareQuery(r, i);
      assert r[..i] == r;
      HostOfBareQuery(r);
    }
  }

  /** The domain URL `http://name.tld?"` is accepted, since `"` is no space. */
  lemma QuotedQueryAccepted(name: string, tld: string)
    requires Label(name) && TldCore(tld)
    ensures IsHostValid("http://" + name + "." + tld + "?\"")
  {
    assert Tail("?\"") by {
      assert !IsSpace("?\""[1]);
    }
    DomainAccepted("http://", name, tld, "?\"");
  }

  lemma DomainQueryIsBare(name: string, tld: string)
    requires Label(name) && TldCore(tld)
    ensures BareQuery(name + "." + tld + "?")
  {
    var r := name + "." + tld + "?";
    forall k | 0 <= k < |r| - 1
      ensures HostChar(r[k])
    {
      if k < |name| {
        assert r[k] == name[k];
      } else if k > |name| {
        assert r[k] == tld[k - |name| - 1];
      }
    }
  }

  /** The same URL without its quote, `http://name.tld?`, is rejected. */
  lemma StrippedQueryRejected(name: string, tld: string)
    requires Label(name) && TldCore(tld)
    ensures !IsHostValid("http://" + name + "." + tld + "?")
  {
    var r := name + "." + tld + "?";
    var s := "http://" + name + "." + tld + "?";
    DomainQueryIsBare(name, tld);
    BareQueryNotAuthority(r);
    assert s == "http://" + r;
    assert s[..7] == "http://";
    assert StartsWithCI(s, "http://");
    assert s[7..] == r;
  }

  lemma StrippedQueryUnquoted(name: string, tld: string)
    requires Label(name) && TldCore(tld)
    ensures '"' !in "http://" + name + "." + tld + "?"
  {
    var r := name + "." + tld + "?";
    var s := "http://" + name + "." + tld + "?";
    assert s == "http://" + r;
    DomainQueryIsBare(name, tld);
    forall k | 0 <= k < |s|
      ensures s[k] != '"'
    {
      if k >= 7 {
        assert s[k] == r[k - 7];
      }
    }
  }
}

=== FILE: Messagebox.dfy ===
/** The control loop of the box (src/Messagebox.py): a five-state machine whose every
    state handler is a pure function from the controller's fields and what the world
    answers (the network replies, the random digits) to the next state, the new fields
    and the visible effects (screens, sleeps, requests sent).

    An exception the source does not catch ends the program; it is `Crash`. The
    error handlers of the fetch state call `run()` again with a new current state;
    here they simply produce that state. */
module Messagebox {
  import opened Wrappers
  import Net = NetworkManager
  import Cfg = ConfigHandler
  import HardwareId
  import HostUrl
  import Display = DisplayRenderer

  datatype State = LoadConfig | FetchMessages | RegisterDevice | Notify | Reading

  /** The runtime settings the backend may change with every fetch. */
  datatype Settings = Settings(muted: bool, rotationCount: int, fetchInterval: int, rotationInterval: int)

  const DefaultSettings: Settings := Settings(false, 1, 60, 30)

  /** Constants of the build (const.py is not part of this model): the length of a
      generated hardware ID and MESSAGE_CHAR_LENGTH; and of the platform: the longest
      sleep `time.sleep` accepts before raising OverflowError (9223372036 seconds for
      CPython on a 64-bit build, less where `time_t` has 32 bits). */
  datatype Limits = Limits(hardwareIdLength: nat, messageCharLength: int, maxSleep: int)

  /** `time.sleep(n)` raises: ValueError for a negative length, OverflowError past the
      platform's bound. */
  predicate SleepRaises(n: int, limits: Limits) {
    n < 0 || n > limits.maxSleep
  }

  /** The controller's fields: the configuration record, the network client, the last
      fetched payload (`None` for the empty dict), the runtime settings, and the config
      file. */
  datatype Box = Box(
    config: Cfg.Config,
    client: Net.Client,
    lastMessage: Option<Net.Payload>,
    settings: Settings,
    store: Cfg.Store)

  /** A controller as constructed, before the first state runs. */
  function InitialBox(store: Cfg.Store): Box {
    Box(Cfg.DefaultConfig, Net.Client("", ""), None, DefaultSettings, store)
  }

  /** What the outside world answers during one iteration of the loop. */
  datatype World = World(
    draws: seq<int>,
    registerReply: Net.HttpReply<string>,
    fetchReply: Net.HttpReply<Net.Payload>,
    readReply: Net.HttpReply<()>)

  /** Visible effects of one iteration, in order. */
  datatype Effect =
    | Show(text: string)
    | ShowMessage(text: string, authorLine: string, fontSize: int, textColor: Display.Rgb, backgroundColor: Display.Rgb)
    | Sleep(seconds: int)
    | Send(request: Net.Request)
    | StartServo
    | AwaitOpen
    | AwaitClose

  /** Why the program stopped on an uncaught exception. */
  datatype Fault =
    | ConfigFault(configError: Cfg.ConfigError)
    | NetworkFault(netError: Net.NetError)
    | ColorFault(hex: string)
    | TypeFault
    | SleepFault(seconds: int)

  datatype Next = Goto(state: State) | Exit | Crash(fault: Fault)

  datatype Step = Step(box: Box, next: Next, effects: seq<Effect>)

  /** A payload that carries a non-empty message object. */
  predicate HasMessage(p: Net.Payload) {
    p.message.Some? && p.message.value.Message?
  }

  predicate Holding(b: Box) {
    b.lastMessage.Some? && HasMessage(b.lastMessage.value)
  }

  function SentEffects(sent: Option<Net.Request>): seq<Effect> {
    if sent.Some? then [Send(sent.value)] else []
  }

  /** No effect of the sequence is a request. */
  predicate NothingSent(effects: seq<Effect>) {
    forall k :: 0 <= k < |effects| ==> !effects[k].Send?
  }

  // ---------------------------------------------------------------- settings

  /** The settings merge of `_fetch_messages`: each field is overwritten exactly when
      its key is present in the settings block. */
  function MergeSettings(s: Settings, block: Net.SettingsBlock): (r: Settings)
    ensures block.mute.Some? ==> r.muted == block.mute.value
    ensures block.mute.None? ==> r.muted == s.muted
    ensures block.rotationCount.Some? ==> r.rotationCount == block.rotationCount.value
    ensures block.rotationCount.None? ==> r.rotationCount == s.rotationCount
    ensures block.fetchInterval.Some? ==> r.fetchInterval == block.fetchInterval.value
    ensures block.fetchInterval.None? ==> r.fetchInterval == s.fetchInterval
    ensures block.rotationInterval.Some? ==> r.rotationInterval == block.rotationInterval.value
    ensures block.rotationInterval.None? ==> r.rotationInterval == s.rotationInterval
  {
    Settings(
      block.mute.GetOr(s.muted),
      block.rotationCount.GetOr(s.rotationCount),
      block.fetchInterval.GetOr(s.fetchInterval),
      block.rotationInterval.GetOr(s.rotationInterval))
  }

  /** An empty block changes nothing, merging the same block twice is merging it once,
      and a later block's keys win over an earlier one's. */
  lemma MergeLaws(s: Settings, a: Net.SettingsBlock, b: Net.SettingsBlock)
    ensures MergeSettings(s, Net.SettingsBlock(None, None, None, None)) == s
    ensures MergeSettings(MergeSettings(s, a), a) == MergeSettings(s, a)
    ensures b.mute.Some? && b.rotationCount.Some? && b.fetchInterval.Some? && b.rotationInterval.Some? ==>
              MergeSettings(MergeSettings(s, a), b) == MergeSettings(s, b)
  {
  }

  /** `_fetch_messages`: the fetch, and the settings after merging a successful reply. */
  function FetchAndMerge(c: Net.Client, s: Settings, reply: Net.HttpReply<Net.Payload>): (r: (Net.Exchange<Net.Payload>, Settings))
    ensures r.0 == Net.FetchMessages(c, reply)
    ensures r.0.result.Failure? ==> r.1 == s
    ensures r.0.result.Success? ==> r.1 == MergeSettings(s, r.0.result.value.settings.value)
  {
    var ex := Net.FetchMessages(c, reply);
    match ex.result
    case Failure(_) => (ex, s)
    case Success(p) => (ex, MergeSettings(s, p.settings.value))
  }

  // ---------------------------------------------------------------- LOAD_CONFIG

  /** The branching of `load_config` once the record is loaded: an empty endpoint exits,
      an empty hardware ID is replaced by fresh digits, the client takes endpoint and
      token, and SetUp chooses the next state. */
  function AfterLoad(b: Box, c: Cfg.Config, draws: seq<int>): (r: Step)
    requires HardwareId.ValidDraws(draws)
    ensures r.effects == []
    ensures c.endpoint == [] ==> r.next == Exit
    ensures r.next == Goto(FetchMessages) <==> c.endpoint != [] && c.setUp
    ensures r.next == Goto(RegisterDevice) <==> c.endpoint != [] && !c.setUp
    ensures c.endpoint != [] ==>
              && r.box.config.endpoint == c.endpoint && r.box.config.token == c.token
              && r.box.config.setUp == c.setUp
              && r.box.client == Net.Client(c.endpoint, c.token)
    ensures c.endpoint != [] && c.hardwareId == [] ==>
              |r.box.config.hardwareId| == |draws| && HardwareId.IsDigitString(r.box.config.hardwareId)
    ensures c.endpoint != [] && c.hardwareId != [] ==> r.box.config.hardwareId == c.hardwareId
    ensures r.box.lastMessage == b.lastMessage && r.box.settings == b.settings && r.box.store == b.store
  {
    if c.endpoint == [] then Step(b.(config := c), Exit, [])
    else
      var id := if c.hardwareId == [] then HardwareId.GenerateHardwareId(draws) else c.hardwareId;
      var b' := b.(config := c.(hardwareId := id), client := Net.Client(c.endpoint, c.token));
      Step(b', Goto(if c.setUp then FetchMessages else RegisterDevice), [])
  }

  /** `load_config`: create the default file when none exists, load it (an exception
      there is uncaught), then branch as `AfterLoad`. */
  function LoadConfigStep(b: Box, draws: seq<int>): (r: Step)
    requires HardwareId.ValidDraws(draws)
    ensures r.box.store.File?
    ensures b.store.File? ==> r.box.store == b.store
    ensures b.store.NoFile? ==> r.box.store == Cfg.CreateConfig(b.store)
    ensures Cfg.LoadConfig(r.box.store).Failure? ==> r.next == Crash(ConfigFault(Cfg.LoadConfig(r.box.store).error))
    ensures Cfg.LoadConfig(r.box.store).Success? ==>
              r == AfterLoad(b.(store := r.box.store), Cfg.LoadConfig(r.box.store).value, draws)
  {
    var store := if Cfg.ConfigExists(b.store) then b.store else Cfg.CreateConfig(b.store);
    match Cfg.LoadConfig(store)
    case Failure(e) => Step(b.(store := store), Crash(ConfigFault(e)), [])
    case Success(c) => AfterLoad(b.(store := store), c, draws)
  }

  /** The exit for an empty endpoint is never taken: a loaded endpoint passed validation
      and cannot be empty, and an empty one stops the program with an uncaught error
      in the handler instead. */
  lemma LoadNeverExits(b: Box, draws: seq<int>)
    requires HardwareId.ValidDraws(draws)
    ensures LoadConfigStep(b, draws).next != Exit
  {
    var store := LoadConfigStep(b, draws).box.store;
    if Cfg.LoadConfig(store).Success? {
      Cfg.LoadedEndpointNonEmpty(store);
    }
  }

  /** On first boot there is no file: the default record is written and loading it
      fails on its empty endpoint. */
  lemma FirstBootStopsOnDefaultConfig(draws: seq<int>)
    requires HardwareId.ValidDraws(draws)
    ensures LoadConfigStep(InitialBox(Cfg.NoFile), draws).next == Crash(ConfigFault(Cfg.InvalidHost("")))
    ensures LoadConfigStep(InitialBox(Cfg.NoFile), draws).box.store == Cfg.CreateConfig(Cfg.NoFile)
  {
    Cfg.CreatedConfigRejected(Cfg.NoFile);
  }

  // ---------------------------------------------------------------- REGISTER_DEVICE

  const RegisteredBanner: string := "DEVICE REGISTERED"

  /** The registration screen: a heading line, then the ID in blocks of three. */
  function IdScreen(id: string): (t: string)
    ensures |t| == 13 + |HardwareId.JoinSpaces(HardwareId.Chunks(id))|
    ensures t[..13] == "Personal ID:\n" && t[13..] == HardwareId.JoinSpaces(HardwareId.Chunks(id))
  {
    "Personal ID:\n" + HardwareId.GroupTriplets(id)
  }

  /** `register_state`: show the grouped ID, ask for a token; with a token, record it in
      the client and the configuration, save the file and go on to fetching; without
      one, wait ten seconds and try again. A connection error is not caught. */
  function RegisterStep(b: Box, reply: Net.HttpReply<string>): (r: Step)
    ensures |r.effects| >= 2 && r.effects[0] == Show(IdScreen(b.config.hardwareId))
    ensures r.effects[1] == Send(Net.Request(Net.Get, b.client.endpoint + "/api/register", Some(b.config.hardwareId), None))
    ensures reply.NoResponse? <==> r.next == Crash(NetworkFault(Net.ConnectionFailed))
    ensures reply.Status? && reply.code == 200 && reply.body != [] ==>
              && r.next == Goto(FetchMessages)
              && r.box.config == b.config.(setUp := true, token := reply.body)
              && r.box.client == b.client.(token := reply.body)
              && r.box.store == Cfg.WriteConfig(b.store, r.box.config)
              && r.effects[2..] == [Show(RegisteredBanner), Sleep(3)]
    ensures reply.Status? && (reply.code != 200 || reply.body == []) ==>
              r.next == Goto(RegisterDevice) && r.box == b && r.effects[2..] == [Sleep(10)]
    ensures r.box.lastMessage == b.lastMessage && r.box.settings == b.settings
  {
    var id := b.config.hardwareId;
    var screen := Show(IdScreen(id));
    var outcome := Net.RegisterDevice(b.client, id, reply);
    var asked := [screen, Send(outcome.1.sent.value)];
    match outcome.1.result
    case Failure(e) => Step(b, Crash(NetworkFault(e)), asked)
    case Success(None) => Step(b, Goto(RegisterDevice), asked + [Sleep(10)])
    case Success(Some(token)) =>
      var c := b.config.(setUp := true, token := token);
      Step(b.(client := outcome.0, config := c, store := Cfg.WriteConfig(b.store, c)),
           Goto(FetchMessages), asked + [Show(RegisteredBanner), Sleep(3)])
  }

  /** After a registration the saved file loads back as registered with the new token
      and the same hardware ID exactly when the endpoint in memory, which is the loaded
      one with its quotes already removed, still validates; otherwise the next boot
      stops on that endpoint. */
  lemma RegistrationPersists(b: Box, token: string)
    requires token != []
    ensures var r := RegisterStep(b, Net.Status(200, token));
            var loaded := Cfg.LoadConfig(r.box.store);
            HostUrl.IsHostValid(b.config.endpoint) ==>
              && loaded.Success? && loaded.value.setUp && loaded.value.token == token
              && loaded.value.hardwareId == b.config.hardwareId
    ensures var r := RegisterStep(b, Net.Status(200, token));
            !HostUrl.IsHostValid(b.config.endpoint) ==>
              Cfg.LoadConfig(r.box.store) == Failure(Cfg.InvalidHost(b.config.endpoint))
  {
    var r := RegisterStep(b, Net.Status(200, token));
    Cfg.WriteThenLoad(b.store, r.box.config);
  }

  /** Registration can break a file that loads: when the stored endpoint validates but
      the same endpoint with its quotes removed does not, loading leads to registration
      with the stripped endpoint, registration saves it, and the saved file then fails
      to load on it. */
  lemma StrippedEndpointLostOnRegistration(stored: string, id: string, token: string, draws: seq<int>)
    requires HostUrl.IsHostValid(stored) && !HostUrl.IsHostValid(Cfg.RemoveQuotes(stored))
    requires token != [] && HardwareId.ValidDraws(draws)
    ensures var file := Cfg.WriteConfig(Cfg.NoFile, Cfg.Config(stored, "", id, false));
            var loaded := LoadConfigStep(InitialBox(file), draws);
            var registered := RegisterStep(loaded.box, Net.Status(200, token));
            && loaded.next == Goto(RegisterDevice)
            && loaded.box.config.endpoint == Cfg.RemoveQuotes(stored)
            && registered.next == Goto(FetchMessages)
            && Cfg.LoadConfig(registered.box.store) == Failure(Cfg.InvalidHost(Cfg.RemoveQuotes(stored)))
  {
    var c := Cfg.Config(stored, "", id, false);
    Cfg.WriteThenLoad(Cfg.NoFile, c);
    Cfg.LoadedEndpointNonEmpty(Cfg.WriteConfig(Cfg.NoFile, c));
    var loaded := LoadConfigStep(InitialBox(Cfg.WriteConfig(Cfg.NoFile, c)), draws);
    RegistrationPersists(loaded.box, token);
  }

  /** An instance of the chain: `http://name.tld?"` loads, and after registration the
      file holds `http://name.tld?`, which is rejected; name `ab` and top-level label
      `cd` give `http://ab.cd?"`. */
  lemma QuotedEndpointLostOnRegistration(name: string, tld: string, id: string, token: string, draws: seq<int>)
    requires HostUrl.Label(name) && HostUrl.TldCore(tld) && token != [] && HardwareId.ValidDraws(draws)
    ensures var stored := "http://" + name + "." + tld + "?\"";
            var stripped := "http://" + name + "." + tld + "?";
            var file := Cfg.WriteConfig(Cfg.NoFile, Cfg.Config(stored, "", id, false));
            var loaded := LoadConfigStep(InitialBox(file), draws);
            && loaded.next == Goto(RegisterDevice)
            && loaded.box.config.endpoint == stripped
            && RegisterStep(loaded.box, Net.Status(200, token)).next == Goto(FetchMessages)
            && Cfg.LoadConfig(RegisterStep(loaded.box, Net.Status(200, token)).box.store)
               == Failure(Cfg.InvalidHost(stripped))
  {
    var stored := "http://" + name + "." + tld + "?\"";
    var stripped := "http://" + name + "." + tld + "?";
    HostUrl.QuotedQueryAccepted(name, tld);
    HostUrl.StrippedQueryRejected(name, tld);
    assert Cfg.RemoveQuotes(stored) == stripped by {
      HostUrl.StrippedQueryUnquoted(name, tld);
      assert stored == stripped + "\"";
      Cfg.RemoveQuotesAppend(stripped, "\"");
      Cfg.RemoveQuotesChar('"');
      Cfg.RemoveQuotesUnquoted(stripped);
    }
    StrippedEndpointLostOnRegistration(stored, id, token, draws);
  }

  // ---------------------------------------------------------------- FETCH_MESSAGES

  /** Where each fetch error leads: the transient ones retry the fetch, the
      authentication ones register again. */
  function Recover(e: Net.NetError): (s: State)
    ensures s == FetchMessages <==> e == Net.ConnectionFailed || e == Net.InvalidResponse
    ensures s == RegisterDevice <==> e == Net.Unauthenticated || e == Net.InvalidToken
  {
    match e
    case ConnectionFailed => FetchMessages
    case InvalidResponse => FetchMessages
    case Unauthenticated => RegisterDevice
    case InvalidToken => RegisterDevice
  }

  const MutedBanner: string := "DEVICE MUTED"
  const NoMessagesBanner: string := "NO MESSAGES"
  const NoConnectionText: string := "No connection"

  /** Both colours of a message parse, so `draw_message_text` does not raise. */
  predicate Displayable(m: Net.Message)
    requires m.Message?
  {
    Display.SwappedColor(m.textColor).Some? && Display.SwappedColor(m.backgroundColor).Some?
  }

  /** The message screen `draw_message_text` composes for `m`. */
  function Shown(m: Net.Message, limits: Limits): Effect
    requires m.Message? && Displayable(m)
  {
    ShowMessage(m.text, Display.AuthorLine(m.author), Display.FontSize(|m.text|, limits.messageCharLength),
                Display.SwappedColor(m.textColor).value, Display.SwappedColor(m.backgroundColor).value)
  }

  function Banner(s: Settings): Effect {
    Show(if s.muted then MutedBanner else NoMessagesBanner)
  }

  /** What a successful fetch leads to, with the merged settings already in `b`: the
      banner for the mute setting; then, for an empty message, a sleep of the fetch
      interval and another poll (an interval below zero or past the platform's bound
      makes `time.sleep` raise, which nothing catches); for a message, its screen and NOTIFY (or another poll
      when muted), unless a colour fails to parse, which stops the program at the
      first bad colour. */
  function AfterFetch(b: Box, p: Net.Payload, limits: Limits, sent: seq<Effect>): (r: Step)
    requires p.Complete()
    ensures r.box == b
    ensures !HasMessage(p) && !SleepRaises(b.settings.fetchInterval, limits) ==>
              r.next == Goto(FetchMessages) && r.effects == sent + [Banner(b.settings), Sleep(b.settings.fetchInterval)]
    ensures !HasMessage(p) && SleepRaises(b.settings.fetchInterval, limits) ==>
              r.next == Crash(SleepFault(b.settings.fetchInterval)) && r.effects == sent + [Banner(b.settings)]
    ensures HasMessage(p) && Displayable(p.message.value) ==>
              && r.next == (if b.settings.muted then Goto(FetchMessages) else Goto(Notify))
              && r.effects == sent + [Banner(b.settings), Shown(p.message.value, limits)]
    ensures HasMessage(p) && Display.SwappedColor(p.message.value.textColor).None? ==>
              r.next == Crash(ColorFault(p.message.value.textColor)) && r.effects == sent + [Banner(b.settings)]
    ensures HasMessage(p) && Display.SwappedColor(p.message.value.textColor).Some?
            && Display.SwappedColor(p.message.value.backgroundColor).None? ==>
              r.next == Crash(ColorFault(p.message.value.backgroundColor)) && r.effects == sent + [Banner(b.settings)]
  {
    var banner := Banner(b.settings);
    match p.message.value
    case NoMessage =>
      if SleepRaises(b.settings.fetchInterval, limits) then Step(b, Crash(SleepFault(b.settings.fetchInterval)), sent + [banner])
      else Step(b, Goto(FetchMessages), sent + [banner, Sleep(b.settings.fetchInterval)])
    case Message(_, text, author, textColor, backgroundColor) =>
      match Display.SwappedColor(textColor)
      case None => Step(b, Crash(ColorFault(textColor)), sent + [banner])
      case Some(fg) =>
        match Display.SwappedColor(backgroundColor)
        case None => Step(b, Crash(ColorFault(backgroundColor)), sent + [banner])
        case Some(bg) =>
          var shown := ShowMessage(text, Display.AuthorLine(author), Display.FontSize(|text|, limits.messageCharLength), fg, bg);
          Step(b, Goto(if b.settings.muted then FetchMessages else Notify), sent + [banner, shown])
  }

  /** `fetch_messages_state`. */
  function FetchStep(b: Box, reply: Net.HttpReply<Net.Payload>, limits: Limits): (r: Step)
    // A held message while not muted: notify at once, with no request.
    ensures Holding(b) && !b.settings.muted ==> r == Step(b, Goto(Notify), [])
    // Otherwise the fetch is made; its errors are mapped and change no field.
    ensures !(Holding(b) && !b.settings.muted) ==>
              var ex := Net.FetchMessages(b.client, reply);
              && SentEffects(ex.sent) <= r.effects
              && (ex.result.Failure? ==> r.next == Goto(Recover(ex.result.error)) && r.box == b)
              && (ex.result.Success? ==>
                    && r.box.lastMessage == Some(ex.result.value)
                    && r.box.settings == MergeSettings(b.settings, ex.result.value.settings.value))
    // A connection error shows "No connection" and waits five seconds; the other errors
    // show nothing.
    ensures !(Holding(b) && !b.settings.muted) && Net.FetchMessages(b.client, reply).result.Failure? ==>
              var ex := Net.FetchMessages(b.client, reply);
              r.effects == SentEffects(ex.sent) + (if ex.result.error == Net.ConnectionFailed
                                                   then [Show(NoConnectionText), Sleep(5)] else [])
    // A fetched empty message: the banner, then poll again after the merged interval;
    // a merged interval `time.sleep` refuses stops the program.
    ensures !(Holding(b) && !b.settings.muted) && Net.FetchMessages(b.client, reply).result.Success?
            && !HasMessage(reply.body) && !SleepRaises(r.box.settings.fetchInterval, limits) ==>
              r.next == Goto(FetchMessages)
              && r.effects == SentEffects(Net.FetchMessages(b.client, reply).sent)
                              + [Banner(r.box.settings), Sleep(r.box.settings.fetchInterval)]
    ensures !(Holding(b) && !b.settings.muted) && Net.FetchMessages(b.client, reply).result.Success?
            && !HasMessage(reply.body) && SleepRaises(r.box.settings.fetchInterval, limits) ==>
              r.next == Crash(SleepFault(r.box.settings.fetchInterval))
              && r.effects == SentEffects(Net.FetchMessages(b.client, reply).sent) + [Banner(r.box.settings)]
    // A fetched message whose colours parse: shown, then NOTIFY, or another poll if muted.
    ensures !(Holding(b) && !b.settings.muted) && Net.FetchMessages(b.client, reply).result.Success?
            && HasMessage(reply.body) && Displayable(reply.body.message.value) ==>
              && r.next == (if r.box.settings.muted then Goto(FetchMessages) else Goto(Notify))
              && r.effects == SentEffects(Net.FetchMessages(b.client, reply).sent)
                              + [Banner(r.box.settings), Shown(reply.body.message.value, limits)]
    // A fetched message whose colours do not parse: the ValueError stops the program.
    ensures !(Holding(b) && !b.settings.muted) && Net.FetchMessages(b.client, reply).result.Success?
            && HasMessage(reply.body) && !Displayable(reply.body.message.value) ==>
              var m := reply.body.message.value;
              r.next == Crash(ColorFault(if Display.SwappedColor(m.textColor).None? then m.textColor else m.backgroundColor))
    ensures r.box.config == b.config && r.box.client == b.client && r.box.store == b.store
  {
    if Holding(b) && !b.settings.muted then Step(b, Goto(Notify), [])
    else
      var (ex, s) := FetchAndMerge(b.client, b.settings, reply);
      var sent := SentEffects(ex.sent);
      match ex.result
      case Failure(e) =>
        Step(b, Goto(Recover(e)), sent + (if e == Net.ConnectionFailed then [Show(NoConnectionText), Sleep(5)] else []))
      case Success(p) => AfterFetch(b.(lastMessage := Some(p), settings := s), p, limits, sent)
  }

  /** Mute suppresses notification but not polling: whenever a fetch is made and the
      merged settings say muted, the next state is not Notify. */
  lemma MutedFetchNeverNotifies(b: Box, reply: Net.HttpReply<Net.Payload>, limits: Limits)
    requires !(Holding(b) && !b.settings.muted)
    requires FetchStep(b, reply, limits).box.settings.muted
    ensures FetchStep(b, reply, limits).next != Goto(Notify)
  {
  }

  /** The muted poll drops a held message: with a message held and the box muted, the
      fast path is skipped, the fetch is made again, and its payload replaces the held
      one whatever it contains, without any acknowledgement. */
  lemma MutedRefetchReplacesHeld(b: Box, p: Net.Payload, limits: Limits)
    requires Holding(b) && b.settings.muted && b.client.token != [] && p.Complete()
    ensures var r := FetchStep(b, Net.Status(200, p), limits);
            && r.box.lastMessage == Some(p)
            && r.effects[0] == Send(Net.Request(Net.Get, b.client.endpoint + "/api/messages", None,
                                                Some(Net.AuthHeader(b.client.token))))
  {
  }

  /** A muted fetch of a message shows it and polls again immediately: unlike the
      empty-message path, no sleep follows. */
  lemma MutedMessageSkipsSleep(b: Box, p: Net.Payload, limits: Limits)
    requires !Holding(b) && b.client.token != [] && p.Complete() && HasMessage(p)
    requires MergeSettings(b.settings, p.settings.value).muted
    ensures var r := FetchStep(b, Net.Status(200, p), limits);
            forall k :: 0 <= k < |r.effects| ==> !r.effects[k].Sleep?
    ensures Displayable(p.message.value) ==>
              var r := FetchStep(b, Net.Status(200, p), limits);
              && r.next == Goto(FetchMessages)
              && |r.effects| == 3 && r.effects[1] == Show(MutedBanner) && r.effects[2] == Shown(p.message.value, limits)
  {
  }

  /** The main transition: an unmuted fetch of a message with valid colours shows it
      under the "NO MESSAGES" banner and goes on to NOTIFY. */
  lemma UnmutedMessageNotifies(b: Box, p: Net.Payload, limits: Limits)
    requires !Holding(b) && b.client.token != [] && p.Complete() && HasMessage(p) && Displayable(p.message.value)
    requires !MergeSettings(b.settings, p.settings.value).muted
    ensures var r := FetchStep(b, Net.Status(200, p), limits);
            && r.next == Goto(Notify)
            && r.box.lastMessage == Some(p) && Holding(r.box)
            && r.effects == [Send(Net.Request(Net.Get, b.client.endpoint + "/api/messages", None,
                                              Some(Net.AuthHeader(b.client.token)))),
                             Show(NoMessagesBanner), Shown(p.message.value, limits)]
  {
  }

  /** An incomplete 200 reply should be retried: with the fetch made, the corrected
      handler polls again and changes no field. */
  lemma IncompleteReplyRetried(b: Box, p: Net.Payload, limits: Limits)
    requires !(Holding(b) && !b.settings.muted) && b.client.token != [] && !p.Complete()
    ensures FetchStep(b, Net.Status(200, p), limits).next == Goto(FetchMessages)
    ensures FetchStep(b, Net.Status(200, p), limits).box == b
  {
  }

  /** The fetch state as written: the message of the InvalidResponseError is built by
      adding the reply's dict to a string, which raises TypeError before the error is
      raised, and no handler catches TypeError. */
  function FetchStepAsWritten(b: Box, reply: Net.HttpReply<Net.Payload>, limits: Limits): (r: Step)
    ensures !(Holding(b) && !b.settings.muted) && Net.FetchMessages(b.client, reply).result == Failure(Net.InvalidResponse)
            ==> r.next == Crash(TypeFault) && r.box == b
    ensures Net.FetchMessages(b.client, reply).result != Failure(Net.InvalidResponse) ==> r == FetchStep(b, reply, limits)
  {
    var ex := Net.FetchMessages(b.client, reply);
    if !(Holding(b) && !b.settings.muted) && ex.result == Failure(Net.InvalidResponse)
    then Step(b, Crash(TypeFault), SentEffects(ex.sent))
    else FetchStep(b, reply, limits)
  }

  /** The discrepancy: a 200 reply without its settings key stops the program as
      written, where the handler for InvalidResponseError would have polled again. */
  lemma IncompleteReplyStopsAsWritten(b: Box, limits: Limits)
    requires !Holding(b) && b.client.token != []
    ensures var p := Net.Payload(Some(Net.NoMessage), None);
            && FetchStepAsWritten(b, Net.Status(200, p), limits).next == Crash(TypeFault)
            && FetchStep(b, Net.Status(200, p), limits).next == Goto(FetchMessages)
  {
  }

  // ---------------------------------------------------------------- NOTIFY / READING

  /** `notify_state`: start the servo thread, wait for the box to be opened. */
  function NotifyStep(b: Box): (r: Step)
    ensures r.next == Goto(Reading) && r.box == b && NothingSent(r.effects)
  {
    Step(b, Goto(Reading), [StartServo, AwaitOpen])
  }

  /** `reading_state`: acknowledge a held message and forget it, then wait for the box to
      be closed; without a held message go straight back to fetching. A refused or
      failed acknowledgement is not caught. */
  function ReadingStep(b: Box, reply: Net.HttpReply<()>): (r: Step)
    ensures !Holding(b) ==> r == Step(b, Goto(FetchMessages), [])
    ensures Holding(b) ==>
              var id := b.lastMessage.value.message.value.id;
              var ex := Net.ReadMessage(b.client, id, reply);
              && SentEffects(ex.sent) <= r.effects
              && (ex.result.Success? ==> r.next == Goto(FetchMessages) && r.box == b.(lastMessage := None))
              && (ex.result.Failure? ==> r.next == Crash(NetworkFault(ex.result.error)))
    ensures r.next.Goto? ==> r.next == Goto(FetchMessages) && !Holding(r.box)
  {
    if Holding(b) then
      var ex := Net.ReadMessage(b.client, b.lastMessage.value.message.value.id, reply);
      var sent := SentEffects(ex.sent);
      match ex.result
      case Failure(e) => Step(b, Crash(NetworkFault(e)), sent)
      case Success(_) => Step(b.(lastMessage := None), Goto(FetchMessages), sent + [AwaitClose])
    else Step(b, Goto(FetchMessages), [])
  }

  /** Acknowledgement happens once: a second reading pass sends nothing and changes
      nothing. */
  lemma ReadingTwiceSendsOnce(b: Box, first: Net.HttpReply<()>, second: Net.HttpReply<()>)
    requires ReadingStep(b, first).next.Goto?
    ensures var again := ReadingStep(ReadingStep(b, first).box, second);
            again.effects == [] && again.box == ReadingStep(b, first).box
  {
  }

  /** A held message with id 0 or a client without a token stops the program when it
      is acknowledged, since `read_message` refuses it and nothing catches the error. */
  lemma ReadingRefusesFalsyId(b: Box, reply: Net.HttpReply<()>)
    requires Holding(b) && (b.lastMessage.value.message.value.id == 0 || b.client.token == [])
    ensures ReadingStep(b, reply).next == Crash(NetworkFault(Net.InvalidToken))
    ensures ReadingStep(b, reply).effects == []
  {
  }

  // ---------------------------------------------------------------- dispatch

  /** One iteration of `run`: the handler of the current state. */
  function RunStep(state: State, b: Box, w: World, limits: Limits): (r: Step)
    requires HardwareId.ValidDraws(w.draws) && |w.draws| == limits.hardwareIdLength
    ensures state == LoadConfig ==> r == LoadConfigStep(b, w.draws)
    ensures state == RegisterDevice ==> r == RegisterStep(b, w.registerReply)
    ensures state == FetchMessages ==> r == FetchStep(b, w.fetchReply, limits)
    ensures state == Notify ==> r == NotifyStep(b)
    ensures state == Reading ==> r == ReadingStep(b, w.readReply)
  {
    match state
    case LoadConfig => LoadConfigStep(b, w.draws)
    case RegisterDevice => RegisterStep(b, w.registerReply)
    case FetchMessages => FetchStep(b, w.fetchReply, limits)
    case Notify => NotifyStep(b)
    case Reading => ReadingStep(b, w.readReply)
  }

  /** The controller's invariant: the client's endpoint and token are the configuration's,
      and a held payload has both of its keys. */
  predicate Consistent(b: Box) {
    && b.client.endpoint == b.config.endpoint
    && b.client.token == b.config.token
    && (b.lastMessage.Some? ==> b.lastMessage.value.Complete())
  }

  lemma LoadKeepsConsistent(b: Box, draws: seq<int>)
    requires HardwareId.ValidDraws(draws) && Consistent(b)
    ensures Consistent(LoadConfigStep(b, draws).box)
  {
    LoadNeverExits(b, draws);
  }

  lemma FetchKeepsConsistent(b: Box, reply: Net.HttpReply<Net.Payload>, limits: Limits)
    requires Consistent(b)
    ensures Consistent(FetchStep(b, reply, limits).box)
  {
  }

  /** Every state handler keeps the invariant, and only LOAD_CONFIG may change the
      hardware ID. */
  lemma RunStepKeepsConsistent(state: State, b: Box, w: World, limits: Limits)
    requires HardwareId.ValidDraws(w.draws) && |w.draws| == limits.hardwareIdLength
    requires Consistent(b)
    ensures Consistent(RunStep(state, b, w, limits).box)
    ensures state != LoadConfig ==> RunStep(state, b, w, limits).box.config.hardwareId == b.config.hardwareId
  {
    match state
    case LoadConfig => LoadKeepsConsistent(b, w.draws);
    case FetchMessages => FetchKeepsConsistent(b, w.fetchReply, limits);
    case RegisterDevice =>
    case Notify =>
    case Reading =>
  }

  /** A freshly constructed controller is consistent. */
  lemma InitialConsistent(store: Cfg.Store)
    ensures Consistent(InitialBox(store))
  {
  }

  // ---------------------------------------------------------------- servo thread

  /** `rotation_count` rounds of opening to 180 degrees and closing to 0 (`range` of a
      negative count is empty). */
  function Pulses(n: int): (angles: seq<int>)
    ensures |angles| == if n <= 0 then 0 else 2 * n
    ensures forall i :: 0 <= i < |angles| ==> angles[i] == (if i % 2 == 0 then 180 else 0)
    decreases if n <= 0 then 0 else n
  {
    if n <= 0 then [] else [180, 0] + Pulses(n - 1)
  }

  /** One pass of the loop in `_rotate_servo`: a fresh fetch (which also merges the
      settings); an exception ends the thread (`None`); otherwise the pulses, unless the
      reply's own settings say mute. A reply without a mute key counts as not muted,
      whatever the stored setting. */
  function ServoCycle(c: Net.Client, s: Settings, reply: Net.HttpReply<Net.Payload>): (r: (Settings, Option<seq<int>>))
    ensures var (ex, merged) := FetchAndMerge(c, s, reply);
            && r.0 == merged
            && (ex.result.Failure? <==> r.1.None?)
            && (ex.result.Success? ==>
                  r.1 == Some(if ex.result.value.settings.value.mute == Some(true) then [] else Pulses(merged.rotationCount)))
  {
    var (ex, merged) := FetchAndMerge(c, s, reply);
    match ex.result
    case Failure(_) => (merged, None)
    case Success(p) =>
      var muted := p.settings.value.mute.GetOr(false);
      (merged, Some(if muted then [] else Pulses(merged.rotationCount)))
  }

  /** The passes of the loop while the stop flag stays clear: one reply per pass. */
  function ServoLoop(c: Net.Client, s: Settings, replies: seq<Net.HttpReply<Net.Payload>>): (r: (seq<int>, Settings))
    ensures replies == [] ==> r == ([], s)
    // The angles alternate 180, 0, 180, 0 ...
    ensures Alternating(r.0)
    decreases |replies|
  {
    if replies == [] then ([], s)
    else
      var (s', angles) := ServoCycle(c, s, replies[0]);
      if angles.None? then ([], s')
      else
        var rest := ServoLoop(c, s', replies[1..]);
        AlternatingAppend(angles.value, rest.0);
        (angles.value + rest.0, rest.1)
  }

  /** One pass of the loop: a pass whose fetch fails ends the thread with its settings
      and no angles; a pass that succeeds sends its pulses and hands its merged
      settings to the remaining passes. */
  lemma ServoLoopPass(c: Net.Client, s: Settings, reply: Net.HttpReply<Net.Payload>,
                      rest: seq<Net.HttpReply<Net.Payload>>)
    ensures ServoCycle(c, s, reply).1.None? ==> ServoLoop(c, s, [reply] + rest) == ([], ServoCycle(c, s, reply).0)
    ensures ServoCycle(c, s, reply).1.Some? ==>
              var next := ServoLoop(c, ServoCycle(c, s, reply).0, rest);
              ServoLoop(c, s, [reply] + rest) == (ServoCycle(c, s, reply).1.value + next.0, next.1)
  {
    assert ([reply] + rest)[0] == reply && ([reply] + rest)[1..] == rest;
  }

  /** `_rotate_servo`: turn the servo to 0 degrees once, then loop; the result is every angle sent to
      the servo, in order, and the settings the thread leaves behind. */
  function RotateServo(c: Net.Client, s: Settings, replies: seq<Net.HttpReply<Net.Payload>>): (r: (seq<int>, Settings))
    ensures |r.0| >= 1 && r.0[0] == 0
  {
    var loop := ServoLoop(c, s, replies);
    ([0] + loop.0, loop.1)
  }

  /** Every pass of `replies` fetches successfully, starting from settings `s`. */
  predicate AllFetched(c: Net.Client, s: Settings, replies: seq<Net.HttpReply<Net.Payload>>)
    decreases |replies|
  {
    replies == []
    || (ServoCycle(c, s, replies[0]).1.Some? && AllFetched(c, ServoCycle(c, s, replies[0]).0, replies[1..]))
  }

  /** The loop is a fold over its passes: when every pass of `a` fetches, running `a`
      then `b` sends the angles of `a` followed by those of `b` started from the
      settings `a` leaves. */
  lemma {:induction false} ServoLoopConcat(c: Net.Client, s: Settings, a: seq<Net.HttpReply<Net.Payload>>,
                                            b: seq<Net.HttpReply<Net.Payload>>)
    requires AllFetched(c, s, a)
    ensures var first := ServoLoop(c, s, a);
            var second := ServoLoop(c, first.1, b);
            ServoLoop(c, s, a + b) == (first.0 + second.0, second.1)
    decreases |a|
  {
    if a == [] {
      assert a + b == b;
      assert [] + ServoLoop(c, s, b).0 == ServoLoop(c, s, b).0;
    } else {
      ServoLoopConcat(c, ServoCycle(c, s, a[0]).0, a[1..], b);
      ServoLoopConcatStep(c, s, a, b);
    }
  }

  /** The inductive step of `ServoLoopConcat`, given the claim for the passes after the
      first. */
  lemma ServoLoopConcatStep(c: Net.Client, s: Settings, a: seq<Net.HttpReply<Net.Payload>>,
                            b: seq<Net.HttpReply<Net.Payload>>)
    requires a != [] && ServoCycle(c, s, a[0]).1.Some?
    requires var tail := ServoLoop(c, ServoCycle(c, s, a[0]).0, a[1..]);
             ServoLoop(c, ServoCycle(c, s, a[0]).0, a[1..] + b)
             == (tail.0 + ServoLoop(c, tail.1, b).0, ServoLoop(c, tail.1, b).1)
    ensures var first := ServoLoop(c, s, a);
            var second := ServoLoop(c, first.1, b);
            ServoLoop(c, s, a + b) == (first.0 + second.0, second.1)
  {
    var pulses := ServoCycle(c, s, a[0]).1.value;
    var s' := ServoCycle(c, s, a[0]).0;
    assert a == [a[0]] + a[1..];
    assert a + b == [a[0]] + (a[1..] + b);
    ServoLoopPass(c, s, a[0], a[1..]);
    ServoLoopPass(c, s, a[0], a[1..] + b);
    var tail := ServoLoop(c, s', a[1..]);
    var second := ServoLoop(c, tail.1, b);
    assert pulses + (tail.0 + second.0) == (pulses + tail.0) + second.0;
  }

  predicate OnlyOpenOrClosed(angles: seq<int>) {
    forall i :: 0 <= i < |angles| ==> angles[i] == 0 || angles[i] == 180
  }

  predicate Alternating(angles: seq<int>) {
    |angles| % 2 == 0 && forall i :: 0 <= i < |angles| ==> angles[i] == (if i % 2 == 0 then 180 else 0)
  }

  lemma AlternatingAppend(a: seq<int>, b: seq<int>)
    requires Alternating(a) && Alternating(b)
    ensures Alternating(a + b)
  {
    var all := a + b;
    forall i | 0 <= i < |all|
      ensures all[i] == (if i % 2 == 0 then 180 else 0)
    {
      if i >= |a| {
        assert all[i] == b[i - |a|];
        assert (i - |a|) % 2 == i % 2;
      }
    }
  }

  /** The servo only ever goes to 0 or 180 degrees, alternating, and the last angle it
      is sent is 0: the servo always ends at 0 degrees. */
  lemma ServoEndsClosed(c: Net.Client, s: Settings, replies: seq<Net.HttpReply<Net.Payload>>)
    ensures var angles := RotateServo(c, s, replies).0;
            OnlyOpenOrClosed(angles) && angles[|angles| - 1] == 0
  {
    var loop := ServoLoop(c, s, replies).0;
    var angles := [0] + loop;
    forall i | 0 <= i < |angles| ensures angles[i] == 0 || angles[i] == 180 {
      if i > 0 {
        assert angles[i] == loop[i - 1];
      }
    }
    if |loop| > 0 {
      assert angles[|angles| - 1] == loop[|loop| - 1];
    }
  }

  /** A reply the thread treats as muted: a successful fetch whose settings say mute,
      or one that ends the thread. */
  predicate SilentReply(c: Net.Client, reply: Net.HttpReply<Net.Payload>) {
    var ex := Net.FetchMessages(c, reply);
    ex.result.Failure? || ex.result.value.settings.value.mute == Some(true)
  }

  /** While every reply says mute, the servo never opens: it is only sent the initial
      0. */
  lemma {:induction false} MutedServoStaysClosed(c: Net.Client, s: Settings, replies: seq<Net.HttpReply<Net.Payload>>)
    requires forall k :: 0 <= k < |replies| ==> SilentReply(c, replies[k])
    ensures ServoLoop(c, s, replies).0 == []
    ensures RotateServo(c, s, replies).0 == [0]
    decreases |replies|
  {
    if replies != [] {
      var (s', a) := ServoCycle(c, s, replies[0]);
      assert SilentReply(c, replies[0]);
      if a.Some? {
        assert forall k :: 0 <= k < |replies[1..]| ==> SilentReply(c, replies[1..][k]) by {
          forall k | 0 <= k < |replies[1..]| ensures SilentReply(c, replies[1..][k]) {
            assert replies[1..][k] == replies[k + 1];
          }
        }
        MutedServoStaysClosed(c, s', replies[1..]);
      }
    }
  }

  /** One cycle of the thread: the initial 0, then, when the fresh reply does not say
      mute, exactly `rotation_count` (as merged from that reply) rounds of 180 then 0. */
  lemma ServoSingleCycle(c: Net.Client, s: Settings, reply: Net.HttpReply<Net.Payload>)
    requires Net.FetchMessages(c, reply).result.Success?
    ensures var merged := MergeSettings(s, reply.body.settings.value);
            var angles := RotateServo(c, s, [reply]).0;
            && (reply.body.settings.value.mute != Some(true) ==> angles == [0] + Pulses(merged.rotationCount))
            && (reply.body.settings.value.mute == Some(true) ==> angles == [0])
  {
    var (s', a) := ServoCycle(c, s, reply);
    assert [reply][1..] == [];
    assert ServoLoop(c, s', []).0 == [];
    if a.Some? {
      assert ServoLoop(c, s, [reply]).0 == a.value + [];
    }
  }
}

=== FILE: NetworkManager.dfy ===
/** The REST client of the box (src/NetworkManager.py): registration, message fetch
    and read acknowledgement, each as a pure function from the client state and the
    reply the transport would give to the request it sends.

    The transport is a parameter: `NoResponse` stands for `requests.ConnectionError`,
    `Status(code, body)` for a response whose JSON body has already been decoded.
    A reply parameter is consulted only when the function reports that it sent a request. */
module NetworkManager {
  import opened Wrappers

  datatype HttpReply<+T> = NoResponse | Status(code: int, body: T)

  /** The closed error taxonomy: the three exception classes of the client plus the
      transport's connection error. */
  datatype NetError = Unauthenticated | InvalidToken | InvalidResponse | ConnectionFailed

  /** The "message" object of a fetch: `{}` or a full message. */
  datatype Message =
    | NoMessage
    | Message(id: int, text: string, author: string, textColor: string, backgroundColor: string)

  /** The "settings" object of a fetch; every key is optional. */
  datatype SettingsBlock = SettingsBlock(
    mute: Option<bool>,
    rotationCount: Option<int>,
    fetchInterval: Option<int>,
    rotationInterval: Option<int>)

  /** The decoded body of `GET /api/messages`; each top-level key may be missing. */
  datatype Payload = Payload(message: Option<Message>, settings: Option<SettingsBlock>) {
    predicate Complete() {
      message.Some? && settings.Some?
    }
  }

  datatype Verb = Get | Patch

  /** An outgoing request: verb, full URL, the `device` query parameter and the
      Authorization header, when present. */
  datatype Request = Request(verb: Verb, url: string, device: Option<string>, authorization: Option<string>)

  /** The client's state: base URL and the bearer token ("" when none). */
  datatype Client = Client(endpoint: string, token: string)

  /** What one call did: the request it sent, if any, and its return value or raised error. */
  datatype Exchange<+T> = Exchange(sent: Option<Request>, result: Result<T, NetError>)

  const BearerPrefix: string := "Bearer "

  /** Value of the Authorization header for `token`. */
  function AuthHeader(token: string): (h: string)
    ensures |h| == |BearerPrefix| + |token|
    ensures h[..|BearerPrefix|] == BearerPrefix
    ensures h[|BearerPrefix|..] == token
  {
    BearerPrefix + token
  }

  /** The token a server reads back out of an Authorization header. */
  function TokenOfHeader(h: string): Option<string> {
    if |h| >= |BearerPrefix| && h[..|BearerPrefix|] == BearerPrefix then Some(h[|BearerPrefix|..]) else None
  }

  lemma AuthHeaderRoundTrip(token: string)
    ensures TokenOfHeader(AuthHeader(token)) == Some(token)
  {
  }

  /** Decimal spelling of a natural number, as Python's `str` writes it. */
  function NatString(n: nat): (s: string)
    ensures |s| >= 1
    ensures forall k :: 0 <= k < |s| ==> '0' <= s[k] <= '9'
  {
    var d := [(('0' as int) + n % 10) as char];
    if n < 10 then d else NatString(n / 10) + d
  }

  /** Decimal spelling of an integer, as Python's f-string writes it. */
  function IntString(n: int): string {
    if n < 0 then "-" + NatString(-n) else NatString(n)
  }

  /** `register_device`: GET /api/register?device=<id>. A 200 reply with a non-empty
      token returns it and stores it in the client; every other reply returns None
      and leaves the client alone; no reply raises the connection error. */
  function RegisterDevice(c: Client, hardwareId: string, reply: HttpReply<string>): (r: (Client, Exchange<Option<string>>))
    ensures r.1.sent == Some(Request(Get, c.endpoint + "/api/register", Some(hardwareId), None))
    ensures r.1.result.Failure? <==> reply.NoResponse?
    ensures r.1.result.Failure? ==> r.1.result.error == ConnectionFailed
    ensures r.1.result == Success(None) <==> reply.Status? && (reply.code != 200 || reply.body == [])
    ensures forall t :: r.1.result == Success(Some(t)) <==> reply == Status(200, t) && t != []
    ensures r.0.endpoint == c.endpoint
    ensures r.1.result.Success? && r.1.result.value.Some? ==> r.0.token == r.1.result.value.value
    ensures !(r.1.result.Success? && r.1.result.value.Some?) ==> r.0 == c
  {
    var sent := Some(Request(Get, c.endpoint + "/api/register", Some(hardwareId), None));
    match reply
    case NoResponse => (c, Exchange(sent, Failure(ConnectionFailed)))
    case Status(code, token) =>
      if code == 200 && token != [] then (c.(token := token), Exchange(sent, Success(Some(token))))
      else (c, Exchange(sent, Success(None)))
  }

  /** `fetch_messages`: without a token it raises InvalidToken and sends nothing.
      Otherwise GET /api/messages with bearer auth: 200 with both "message" and
      "settings" returns the body unchanged, 200 missing either is InvalidResponse,
      401 is Unauthenticated, any other status falls through to InvalidToken. */
  function FetchMessages(c: Client, reply: HttpReply<Payload>): (r: Exchange<Payload>)
    ensures c.token == [] ==> r == Exchange(None, Failure(InvalidToken))
    ensures c.token != [] ==>
              r.sent == Some(Request(Get, c.endpoint + "/api/messages", None, Some(AuthHeader(c.token))))
    ensures r.result.Success? <==> c.token != [] && reply.Status? && reply.code == 200 && reply.body.Complete()
    ensures r.result.Success? ==> r.result.value == reply.body && r.result.value.Complete()
    ensures r.result == Failure(InvalidResponse) <==>
              c.token != [] && reply.Status? && reply.code == 200 && !reply.body.Complete()
    ensures r.result == Failure(Unauthenticated) <==> c.token != [] && reply.Status? && reply.code == 401
    ensures r.result == Failure(ConnectionFailed) <==> c.token != [] && reply.NoResponse?
    ensures r.result == Failure(InvalidToken) <==>
              c.token == [] || (reply.Status? && reply.code != 200 && reply.code != 401)
  {
    if c.token == [] then Exchange(None, Failure(InvalidToken))
    else
      var sent := Some(Request(Get, c.endpoint + "/api/messages", None, Some(AuthHeader(c.token))));
      match reply
      case NoResponse => Exchange(sent, Failure(ConnectionFailed))
      case Status(code, body) =>
        if code == 200 then
          (if body.Complete() then Exchange(sent, Success(body)) else Exchange(sent, Failure(InvalidResponse)))
        else if code == 401 then Exchange(sent, Failure(Unauthenticated))
        else Exchange(sent, Failure(InvalidToken))
  }

  /** `read_message`: PATCH /api/messages/<id> only when a token is set and the id is
      truthy (so id 0 is refused); the reply's status is ignored. */
  function ReadMessage(c: Client, messageId: int, reply: HttpReply<()>): (r: Exchange<bool>)
    ensures r.sent.Some? <==> c.token != [] && messageId != 0
    ensures r.sent.Some? ==>
              r.sent.value == Request(Patch, c.endpoint + "/api/messages/" + IntString(messageId), None,
                                      Some(AuthHeader(c.token)))
    ensures r.sent.None? ==> r.result == Failure(InvalidToken)
    ensures r.result == Success(true) <==> r.sent.Some? && reply.Status?
    ensures r.result == Failure(ConnectionFailed) <==> r.sent.Some? && reply.NoResponse?
    ensures r.result != Success(false)
  {
    if c.token != [] && messageId != 0 then
      var sent := Some(Request(Patch, c.endpoint + "/api/messages/" + IntString(messageId), None,
                               Some(AuthHeader(c.token))));
      if reply.NoResponse? then Exchange(sent, Failure(ConnectionFailed)) else Exchange(sent, Success(true))
    else Exchange(None, Failure(InvalidToken))
  }
}

=== FILE: Wrappers.dfy ===
/** Option and Result types shared by every module of the model.
    A Python `None` return becomes `None`; a raised exception becomes `Failure`. */
module Wrappers {

  datatype Option<+T> = None | Some(value: T) {

    /** The value, or `default` when absent (Python's `d.get(k, default)`). */
    function GetOr(default: T): T {
      match this
      case Some(v) => v
      case None => default
    }
  }

  datatype Result<+R, +E> = Success(value: R) | Failure(error: E)
}
